=== FILE: README.md ===
# Texas energy dashboard: the parsing and normalising core, in Dafny

The dashboard's data pipeline fetches three public datasets and turns each
into a JSON summary. The network downloads and the pandas and Excel wrappers
are thin; the logic that decides what the dashboard shows lives in three
string-in, records-out routines. This project models those routines as pure
Dafny functions and methods and proves what they guarantee.

- **Drilling permits** (`data-pipeline/fetch_rrc_permits.py`):
  - `parse_daf420` scans the `\n`-split lines of the fixed-width `daf420.dat`
    file for "01" master records.
  - For each master it looks ahead at most nine lines for an "02" trailer. It
    reads a town name out of the trailer with a regular expression. It then
    resolves town → county → basin through the `CITY_TO_COUNTY` and
    `TEXAS_BASINS` tables and `get_basin`.
  - It emits a permit only for a valid `YYYYMMDD` date and a non-blank
    operator.
  - Modules: `Permits` (`permits.dfy`), `Geography` (`geography.dfy`) and
    `CityPattern` (`city_pattern.dfy`). `CityPattern` spells out the
    backtracking search of the pattern
    `(?:NE|NW|SE|SW|N|S|E|W)\s{2,}([A-Z][A-Z ,\.]+?)\s{2,}`.
- **Enforcement** (`data-pipeline/fetch_rrc_enforcement.py`):
  - The body of `fetch_violations_data` reads `VIOLATIONS.txt` chunk by
    chunk. It carries the unfinished last line in a buffer and takes the
    first non-blank line as the `}`-separated header. It drops rows with
    fewer fields than the header and keeps rows whose `VIOLATION_DISC_DATE`
    is lexically at least a cutoff.
  - `process_enforcement_data` sorts the rows newest first, shows the ten
    newest as items, and counts them by action, county, rule and
    major-violation flag.
  - Modules: `ViolationStream` (`violations.dfy`) and `Enforcement`
    (`enforcement.dfy`). `ViolationStream` models the chunk loop as a fold.
- **Interconnection queue** (`data-pipeline/fetch_ercot.py`):
  - The header-row probe tries `header=0..5` and keeps the first parse with
    more than five named columns.
  - The four column searches follow.
  - The `fuel_map` normalisation: the first key, in written order, found in
    the lower-cased, stripped label decides the category.
  - The status breakdown drops missing values.
  - Three worked examples show the first-match rule on single labels:
    `Queue.CompoundGasExample` ("Gas-CC" is Gas), `Queue.HybridExample`
    ("solar + storage" is Solar) and `Queue.PaddedExample` ("  WIND " is
    Wind). `Queue.FirstKeyDecides` states the rule for every label.
  - Module: `Queue` (`queue.dfy`). The Excel reader is a parameter, a
    function from the number of skipped rows to either failure or a list of
    column names.

Shared vocabulary:

- `Common` (`common.dfy`): options, first-match search, the list of present
  values a loop collects, folds.
- `Text` (`text.dfy`): Python's `strip`, `rstrip`, `lower`, `upper`,
  `split`, `in` and `<=` on `str`.
- `Dates` (`dates.dfy`): digit strings, the calendar that
  `strptime('%Y%m%d')` accepts, the dashed date format.
- `Ranking` (`ranking.dfy`): the dict used as a counter, Python's stable
  `sorted(..., reverse=True)`, and the `[:n]` cut.

The pattern uses `\s{2,}`, so any whitespace characters count around the
town name. Other details the model takes from the code:

- The town is stripped of whitespace at both ends before trailing commas
  are removed.
- `get_basin` upper-cases and then strips.
- The trailer window ends at `min(i + 10, len(lines))`, so lines `i+1` to
  `i+9` are examined.

## Model

| member | source | states |
|---|---|---|
| `Geography.GetBasin` | data-pipeline/fetch_rrc_permits.py:71-75 | An absent or empty county gives "Other". Otherwise the result is a basin name exactly when the upper-cased, stripped county is a key of `TEXAS_BASINS`, and it is then that key's basin, whose county list holds the key. It never fails. |
| `Geography.BasinNameIsNotOther` | data-pipeline/fetch_rrc_permits.py:17-39 | No basin of the table is named "Other", so "Other" unambiguously means unmapped. |
| `Geography.CountyOf` | data-pipeline/fetch_rrc_permits.py:140 | The county is `CITY_TO_COUNTY[city]`, else `CITY_TO_COUNTY[city + ", TX"]`, else "". So it is "" or a value of the table, and non-empty only when one of the two lookups hit. |
| `CityPattern.LazyNameEnd` | data-pipeline/fetch_rrc_permits.py:135 | The lazy `[A-Z ,\.]+?` ends at the first position followed by two whitespace characters, and every character before it is in the class. When it fails, a character outside the class, or the end of the text, comes before any such position. |
| `CityPattern.AfterDirection` | data-pipeline/fetch_rrc_permits.py:135 | After a direction token, a match needs a whitespace run of at least two, then a capital letter, then the group. The group lies right after that run and ends at the first double whitespace it reaches. No result means that no way of matching exists. |
| `CityPattern.EveryMatchIsFound` | data-pipeline/fetch_rrc_permits.py:135 | Any way of matching starts its group where the whitespace run after the direction ends. The lazy name loop from there finds an end, so backtracking into `\s{2,}` gains nothing. |
| `CityPattern.TryDirectionsIsFirstAlternative` | data-pipeline/fetch_rrc_permits.py:135 | At one start position the alternatives `NE, NW, SE, SW, N, S, E, W` are tried in written order. No match means none succeeds; a match is the first one that does. |
| `CityPattern.SearchFailsEverywhere` | data-pipeline/fetch_rrc_permits.py:134-137 | `re.search` finding nothing means that the pattern matches at no start position. |
| `CityPattern.SearchIsLeftmost` | data-pipeline/fetch_rrc_permits.py:134-137 | A successful `re.search` returns the match at the leftmost start position where the pattern matches. |
| `CityPattern.ExtractCity` | data-pipeline/fetch_rrc_permits.py:133-139 | A town is extracted exactly when `re.search` matches. The town is read from the tail at the start of the leftmost match's group. What follows it in the group is a run of commas and then the group's whole trailing whitespace run, as `strip().rstrip(',')` cuts it. It is non-empty, starts with a capital letter, uses only `[A-Z ,.]` and does not end with a comma. |
| `CityPattern.NameOfSpan` | data-pipeline/fetch_rrc_permits.py:139 | `group(1).strip().rstrip(',')` stays inside the name class and is a prefix of the group, read from the tail where the group starts. |
| `CityPattern.CleanName` | data-pipeline/fetch_rrc_permits.py:139 | Stripping a group that opens with a capital letter cuts only its end, and the capital stays. What is cut is a run of commas followed by the group's whole trailing whitespace run, so no trailing comma remains. |
| `Permits.FindTrailer` | data-pipeline/fetch_rrc_permits.py:128-144 | The trailer found is the first "02" line longer than 200 characters within nine lines after the master, with no "01" line and no trailer before it. When none is found, every trailer in the window comes after an "01" line. |
| `Permits.Location` | data-pipeline/fetch_rrc_permits.py:126-141 | With no trailer found, town and county are both "". With a trailer, the town is the name the pattern extracts from the trailer's text from column 180, or "" with no county when the pattern misses. A town's county is the `CITY_TO_COUNTY` lookup of the town, with the ", TX" fallback. |
| `Permits.PermitAt` | data-pipeline/fetch_rrc_permits.py:114-161 | Only a master line (an "01" line of length at least 98 after `rstrip`) yields a permit. The operator is the stripped columns 66-97 and is non-empty. The date is columns 58-65, a valid calendar date, shown dashed. The basin is `get_basin(county)`. Every master with a valid date and a non-blank operator yields one. |
| `Permits.ParseDaf420` | data-pipeline/fetch_rrc_permits.py:104-165 | The scan as written, an outer line index with a look-ahead index, returns exactly the permits of the line-by-line description, in line order. |
| `Permits.ScanTrailer` | data-pipeline/fetch_rrc_permits.py:126-144 | The look-ahead loop with its two `break`s computes the town and county of `Location`. |
| `Permits.MasterRecord` | data-pipeline/fetch_rrc_permits.py:122-161 | The body for one master emits what `PermitAt` says that line yields. |
| `Permits.AtMostOnePermitPerMaster` | data-pipeline/fetch_rrc_permits.py:112-163 | There are never more permits than master lines. |
| `Permits.PermitsFollowLineOrder` | data-pipeline/fetch_rrc_permits.py:112-163 | Each permit comes from a distinct master line. These lines increase along the output, and every line that yields a permit is among them. |
| `Permits.EveryPermitWellFormed` | data-pipeline/fetch_rrc_permits.py:154-161 | Every emitted permit has a non-empty operator, a ten-character date, a county that is "" or from the town table (and "" without a town), and the basin of its county. |
| `Permits.TrailerBeyondWindowIgnored` | data-pipeline/fetch_rrc_permits.py:129 | A trailer ten lines after the master is not found. |
| `Permits.TrailerAtWindowEdgeFound` | data-pipeline/fetch_rrc_permits.py:129-131 | A trailer nine lines after the master is found when nothing before it stops the search. |
| `Permits.NextMasterEndsSearch` | data-pipeline/fetch_rrc_permits.py:142-143 | An "01" line right after the master ends the search with nothing found. |
| `Permits.NoTrailerMeansOther` | data-pipeline/fetch_rrc_permits.py:126-159 | A master with no trailer, or with a trailer whose text the pattern does not match, gets town "", county "" and basin "Other". |
| `Dates.Dashed` | data-pipeline/fetch_rrc_permits.py:150 | `YYYYMMDD` is reformatted as `YYYY-MM-DD`; removing the two dashes gives the eight digits back. |
| `Dates.LexOrderIsNumericOrder` | data-pipeline/fetch_rrc_enforcement.py:87 | For equally long digit strings, Python's `>=` on `str` agrees with `>=` on the numbers they denote. |
| `ViolationStream.KeptRow` | data-pipeline/fetch_rrc_enforcement.py:79-88 | A data line gives a row exactly when it is non-blank, has at least as many `}`-fields as the header, and its date is lexically at least the cutoff. The row is the header zipped with the fields. |
| `ViolationStream.ZipPrefixSpec` | data-pipeline/fetch_rrc_enforcement.py:83 | `dict(zip(header, fields))` has exactly the paired header names as keys, each mapped to the field of its last occurrence. |
| `ViolationStream.ZipIgnoresExtraFields` | data-pipeline/fetch_rrc_enforcement.py:79-83 | Fields beyond the header's length play no part in the row. |
| `ViolationStream.Step` | data-pipeline/fetch_rrc_enforcement.py:71-88 | A blank line changes nothing. The first non-blank line becomes the header and is not a row. After that, each line appends its kept row, if any. |
| `ViolationStream.Feed` | data-pipeline/fetch_rrc_enforcement.py:65-70 | After a chunk the buffer never holds a `\n`. |
| `ViolationStream.FeedTwice` | data-pipeline/fetch_rrc_enforcement.py:65-70 | Feeding two chunks in turn is feeding their concatenation. |
| `ViolationStream.FeedAllIsFeedOfConcat` | data-pipeline/fetch_rrc_enforcement.py:65-88 | The chunk loop over any list of chunks ends in the state a single chunk holding the whole text gives. |
| `ViolationStream.ChunkBoundariesDoNotMatter` | data-pipeline/fetch_rrc_enforcement.py:65-88 | Two chunkings of the same text give the same buffer, header and kept rows. |
| `ViolationStream.ParsesExactlyTerminatedLines` | data-pipeline/fetch_rrc_enforcement.py:65-91 | The lines parsed are exactly the `\n`-terminated lines of the text, in order. The text after the last `\n` stays in the buffer and is never parsed. |
| `ViolationStream.HeaderLine` | data-pipeline/fetch_rrc_enforcement.py:71-77 | The header line is the first line that is not blank after `strip`. |
| `ViolationStream.ProcessLinesIsExpected` | data-pipeline/fetch_rrc_enforcement.py:70-88 | The loop over complete lines ends in the declarative result: no header if all lines are blank, else the split first non-blank line and the rows kept from the lines after it. |
| `ViolationStream.KeptRowsInFileOrder` | data-pipeline/fetch_rrc_enforcement.py:79-88 | Kept rows come from distinct data lines after the header, in file order. Every line the filter keeps is among them. |
| `ViolationStream.RecentIsNumericallyRecent` | data-pipeline/fetch_rrc_enforcement.py:86-88 | For a cutoff and dates written as equally long digit strings, a row is kept exactly when its date is numerically at least the cutoff. |
| `ViolationStream.FetchViolations` | data-pipeline/fetch_rrc_enforcement.py:60-91 | The nested chunk and line loops as written return the rows of the fold model. |
| `ViolationStream.ScanLines` | data-pipeline/fetch_rrc_enforcement.py:70-88 | The inner loop with its three `continue`s computes the fold of `Step`. |
| `Ranking.SortDesc` | data-pipeline/fetch_rrc_enforcement.py:128 | The descending sort is a permutation of its input and is sorted. |
| `Ranking.SortDescStable` | data-pipeline/fetch_rrc_enforcement.py:128 | The sort is stable: the elements of each rank leave in the order they entered. |
| `Ranking.Tally` | data-pipeline/fetch_rrc_enforcement.py:177-189 | The dict counter has one entry per distinct key and an entry for every key seen. Each entry carries its key's exact number of occurrences, and the counts add up to the number of keys. Entries come in the order their keys first occur. |
| `Ranking.TopN` | data-pipeline/fetch_rrc_enforcement.py:192-193 | `sorted(..., reverse=True)[:n]` keeps `min(n, len)` entries with counts non-increasing. It keeps entries of the input, and nothing cut has a higher count than anything kept. The sort is stable: among entries of equal count, those kept are the earliest in the input, in input order. |
| `Ranking.TopCountsComplete` | data-pipeline/fetch_rrc_enforcement.py:181-192 | When there are at most `n` keys in all, every key that passes the filter is in the ranking: the `[:n]` cut removes nothing. |
| `Ranking.TopCounts` | data-pipeline/fetch_rrc_enforcement.py:181-193 | The ranking of the keys that pass the filter holds `min(n, number of distinct such keys)` entries, one per key. Every entry is a counted key with its exact number of occurrences, highest first. No key left out occurs more often than one kept. Among keys of equal count at the cut, a kept key first occurs in the input before any left-out one: ties go to first appearance. |
| `Enforcement.NewestFirstIsDescending` | data-pipeline/fetch_rrc_enforcement.py:128 | After the sort the date strings never increase. |
| `Enforcement.SortKeepsSameDateOrder` | data-pipeline/fetch_rrc_enforcement.py:128 | Rows with the same date keep their file order. |
| `Enforcement.FormatDate` | data-pipeline/fetch_rrc_enforcement.py:142-149 | An eight-character date becomes `d[0:4]-d[4:6]-d[6:8]`; any other date is left as it is. |
| `Enforcement.Headline` | data-pipeline/fetch_rrc_enforcement.py:157 | The headline is `"{operator}: {rule_desc}"`, followed by `" - {county} County"` exactly when the county is non-empty. |
| `Enforcement.ItemOf` | data-pipeline/fetch_rrc_enforcement.py:151-168 | Each item field carries the row's value or the item's default: "Unknown" for operator and status, "" for county, rule and rule description. The headline is built from the operator, the rule description and the county. The item is major exactly when the flag is "Y". |
| `Enforcement.Items` | data-pipeline/fetch_rrc_enforcement.py:141-169 | There are `min(10, n)` items, item `i` showing the `i`-th newest row. |
| `Enforcement.NewestRowsFirst` | data-pipeline/fetch_rrc_enforcement.py:128-141 | No row cut from the first `m` of the sorted list is newer than a row kept. |
| `Enforcement.ByStatus` | data-pipeline/fetch_rrc_enforcement.py:177-191 | One entry per action ("Unknown" when missing) that some row carries, each with its exact count. Every row's action is present, and the counts add up to the number of rows. Actions come in the order they first occur in the newest-first list. |
| `Enforcement.MajorCount` | data-pipeline/fetch_rrc_enforcement.py:185-194 | `major_violations` is the number of rows whose flag is "Y". |
| `Enforcement.ByCounty` | data-pipeline/fetch_rrc_enforcement.py:181-192 | `min(20, number of distinct non-empty counties)` entries, one per county, highest count first. Empty county names are skipped and counts are exact. No county left out has more violations than one shown. |
| `Enforcement.ByType` | data-pipeline/fetch_rrc_enforcement.py:188-193 | `min(10, number of distinct rule descriptions)` entries ("Other" when missing), one per description, ranked the same way with exact counts. |
| `Enforcement.ProcessEnforcement` | data-pipeline/fetch_rrc_enforcement.py:122-196 | None exactly for no rows. Otherwise `total_recent` is the number of rows. Item `i` shows the `i`-th row newest first, for `min(10, n)` items. `major_violations` is the number of rows flagged "Y". The three breakdowns are those of `ByStatus`, `ByCounty` and `ByType`. |
| `Queue.FuelCategory` | data-pipeline/fetch_ercot.py:141-142 | The category is one of Solar, Wind, Gas, Battery Storage, Nuclear, Coal, Other. It is the value of the first `fuel_map` key found in the lower-cased, stripped label, or "Other" when none is found. |
| `Queue.FirstKeyDecides` | data-pipeline/fetch_ercot.py:125-142 | Finding key `i` and no earlier key fixes the category to key `i`'s value: dict order decides. |
| `Queue.CategoryMapsToItself` | data-pipeline/fetch_ercot.py:125-134 | Each category name, read as a label, maps to itself. |
| `Queue.FuelCategoryIdempotent` | data-pipeline/fetch_ercot.py:125-142 | Mapping a mapped category again changes nothing. |
| `Queue.CapacityTestSubsumed` | data-pipeline/fetch_ercot.py:96-101 | The test against "capacity (mw)" picks no column that the two-word test would not. |
| `Queue.CapacityColumnNamesBoth` | data-pipeline/fetch_ercot.py:94-101 | The capacity column is the first column whose lower-cased name contains both "capacity" and "mw". |
| `Queue.FindColumn` | data-pipeline/fetch_ercot.py:88-92 | The loop with `break` finds the first column satisfying the test, or none. |
| `Queue.DetectColumns` | data-pipeline/fetch_ercot.py:88-113 | The fuel, capacity, status and county columns are each the first column passing their test, or none. |
| `Queue.ProbeFinds` | data-pipeline/fetch_ercot.py:63-70 | A successful probe returns the parse at the smallest skip in 0..5 that succeeds with more than five names not containing "Unnamed". Every smaller skip failed or had too few names. |
| `Queue.ProbeGivesUp` | data-pipeline/fetch_ercot.py:63-75 | The probe gives up exactly when no skip in 0..5 is accepted. |
| `Queue.ReadProjectDetails` | data-pipeline/fetch_ercot.py:63-75 | The loop as written, with `continue` on a failed parse, returns the probe's result. |
| `Queue.StatusBreakdown` | data-pipeline/fetch_ercot.py:157-162 | Missing cells are not counted. Statuses reading "nan", "none" or "" in any case are dropped. There is one entry per distinct shown status present in the column, with its exact count, highest first. |

## Left out

- Network I/O: the MFT portal session and ViewState form post
  (`download_from_mft`), the ERCOT document listing and download,
  `gridstatus`. All of these are foreign calls. The permit parser takes the
  decoded text, the violation loop takes the chunks as strings, and the
  probe takes the Excel reader as a function.
- UTF-8 decoding with `errors='replace'`. The model works on characters, so
  a multibyte character split between two chunks is not modelled.
- The clock. The 90-day cutoff is a parameter, and `updated_at` is not part
  of the summaries.
- `generate_sample_*`: random sample data.
- `process_permit_data`: pandas datetime coercion and a window relative to
  the current time.
- `process_queue_data`'s capacity arithmetic is floating point: the
  `by_fuel_type` sums and rounding, `total_capacity_gw`, and the top-15
  county ranking by summed capacity. Column detection, the fuel mapping and
  the status breakdown are modelled.
- All `main` functions and `run_all.py`: orchestration, printing and JSON
  files.
- `Text.Upper`, `Text.Lower`: ASCII letters only. Python's Unicode case
  mapping (including characters whose case form has a different length) is
  not modelled.
- `Dates.IsCalendarDate`: `isdigit` is taken as ASCII digits. Other Unicode
  decimal digits, which Python also accepts, are not modelled.
- `Dates.Dashed`: `strftime('%Y')` for years below 1000 is platform
  dependent and is shown here as the four digits read.
- `Queue.StatusBreakdown`: the order of equal counts from pandas
  `value_counts` is not pinned down. The model gives some order with counts
  non-increasing. Column values are strings or missing; `str(k)` of other
  cell types is not modelled.
- `Enforcement.ByCounty`, `Enforcement.ByType`: which of several equally
  counted keys survive the `[:20]` or `[:10]` cut is stated one layer down,
  by `Ranking.TopCounts` (the key that first occurs earlier wins). It is not
  restated in terms of the rows.
- `Queue.DetectColumns`: column names are taken to be strings. A header
  cell that pandas keeps as a number or a date makes the source's
  `col.lower()` raise AttributeError before detection finishes; that
  failure is not modelled.
- `Queue.ProbeHeader`: returns the skip and the column names rather than
  the DataFrame.
- The `permits` records carry the five fields the dashboard stores; dicts
  become datatypes.

=== FILE: city_pattern.dfy ===
/**
  The town name in a permit trailer. The parser runs
      re.search(r'(?:NE|NW|SE|SW|N|S|E|W)\s{2,}([A-Z][A-Z ,\.]+?)\s{2,}', tail)
  and keeps group 1 with surrounding whitespace and then trailing commas
  removed. This module spells out what that backtracking search returns:

  - start positions are tried left to right, and at each one the direction
    alternatives in the order written;
  - the greedy `\s{2,}` after the direction can only succeed with the whole
    whitespace run, since giving back a character would put whitespace where
    `[A-Z]` needs a letter;
  - the lazy `[A-Z ,\.]+?` stops at the first place where two whitespace
    characters follow, and fails once a character outside its class appears
    before such a place.
 */
module CityPattern {
  import opened Common
  import opened Text

  /** The direction alternatives, in the order the pattern tries them. */
  const Directions: seq<string> := ["NE", "NW", "SE", "SW", "N", "S", "E", "W"]

  /** The character class `[A-Z ,\.]` of the town name. */
  predicate InNameClass(c: char) {
    IsAsciiUpper(c) || c == ' ' || c == ',' || c == '.'
  }

  predicate DoubleSpaceAt(s: string, e: int) {
    0 <= e && e + 1 < |s| && IsSpace(s[e]) && IsSpace(s[e + 1])
  }

  /** Group 1 of a match: `tail[start..end]`. */
  datatype Span = Span(start: nat, end: nat)

  /** What any match guarantees of its group: a capital letter, at least one
      more class character, and two whitespace characters right after it. */
  predicate IsNameSpan(s: string, span: Span) {
    && span.start + 2 <= span.end
    && span.end + 1 < |s|
    && IsAsciiUpper(s[span.start])
    && (forall j :: span.start < j < span.end ==> InNameClass(s[j]))
    && DoubleSpaceAt(s, span.end)
  }

  /** Length of the whitespace run beginning at `k`. */
  function SpaceRun(s: string, k: nat): (n: nat)
    requires k <= |s|
    ensures k + n <= |s|
    ensures forall j :: k <= j < k + n ==> IsSpace(s[j])
    ensures k + n == |s| || !IsSpace(s[k + n])
    decreases |s| - k
  {
    if k < |s| && IsSpace(s[k]) then 1 + SpaceRun(s, k + 1) else 0
  }

  /** The lazy name loop started at `e` gives up at `j`: no double
      whitespace from `e` up to `j`, and `j` ends the text or holds a
      character outside the class. */
  predicate GivesUpAt(s: string, e: nat, j: nat) {
    && e <= j <= |s|
    && (j == |s| || !InNameClass(s[j]))
    && forall m :: e <= m <= j ==> !DoubleSpaceAt(s, m)
  }

  /** The lazy name loop: the group so far is `s[..e]`; stop at the first
      double whitespace, otherwise take one more class character. */
  function LazyNameEnd(s: string, e: nat): (r: Option<nat>)
    requires e <= |s|
    ensures r.Some? ==> e <= r.value && DoubleSpaceAt(s, r.value)
    ensures r.Some? ==> forall j :: e <= j < r.value ==> InNameClass(s[j]) && !DoubleSpaceAt(s, j)
    ensures r.None? ==> exists j :: GivesUpAt(s, e, j)
    decreases |s| - e
  {
    if DoubleSpaceAt(s, e) then Some(e)
    else if e < |s| && InNameClass(s[e]) then
      var r := LazyNameEnd(s, e + 1);
      if r.None? then
        var j :| GivesUpAt(s, e + 1, j);
        assert GivesUpAt(s, e, j);
        r
      else r
    else
      assert GivesUpAt(s, e, e);
      None
  }

  /** `span` is a way for `\s{2,}([A-Z][A-Z ,\.]+?)\s{2,}` to match right
      after a direction token ending at `q`: two or more whitespace
      characters, then the group, then two whitespace characters. */
  predicate MatchesAfter(s: string, q: nat, span: Span) {
    && IsNameSpan(s, span)
    && q + 2 <= span.start
    && forall j :: q <= j < span.start ==> IsSpace(s[j])
  }

  /** `\s{2,}([A-Z][A-Z ,\.]+?)\s{2,}` tried right after a direction token
      that ends at `q`. A result is a match whose group ends at the first
      double whitespace the lazy group can reach; no result means there is
      no match at all. */
  function AfterDirection(s: string, q: nat): (r: Option<Span>)
    requires q <= |s|
    ensures r.Some? ==> IsNameSpan(s, r.value)
    ensures r.Some? ==> q + 2 <= r.value.start && forall j :: q <= j < r.value.start ==> IsSpace(s[j])
    ensures r.Some? ==> forall j :: r.value.start + 2 <= j < r.value.end ==> !DoubleSpaceAt(s, j)
    ensures r.None? ==> forall span :: !MatchesAfter(s, q, span)
  {
    var c := q + SpaceRun(s, q);
    EveryMatchIsFound(s, q, c);
    if c >= q + 2 && c + 1 < |s| && IsAsciiUpper(s[c]) && InNameClass(s[c + 1]) then
      match LazyNameEnd(s, c + 2)
      case Some(e) => Some(Span(c, e))
      case None => None
    else None
  }

  /** Any match after the direction starts its group where the whitespace
      run ends, and the lazy loop from there finds an end. */
  lemma EveryMatchIsFound(s: string, q: nat, c: nat)
    requires q <= |s| && c == q + SpaceRun(s, q)
    ensures forall span :: MatchesAfter(s, q, span) ==>
      (&& span.start == c && c >= q + 2 && c + 1 < |s| && IsAsciiUpper(s[c]) && InNameClass(s[c + 1])
       && LazyNameEnd(s, c + 2).Some?)
  {
    forall span | MatchesAfter(s, q, span)
      ensures span.start == c && LazyNameEnd(s, c + 2).Some?
    {
      assert !IsSpace(s[span.start]);
      assert span.start == c;
      LazyReachesEnd(s, c + 2, span.end);
    }
  }

  /** A double whitespace reachable through class characters stops the lazy
      loop: it cannot give up before it. */
  lemma {:induction false} LazyReachesEnd(s: string, e0: nat, e: nat)
    requires e0 <= e && DoubleSpaceAt(s, e)
    requires forall j :: e0 <= j < e ==> InNameClass(s[j])
    ensures LazyNameEnd(s, e0).Some?
    decreases e - e0
  {
    if !DoubleSpaceAt(s, e0) {
      LazyReachesEnd(s, e0 + 1, e);
    }
  }

  /** Direction alternative `k` read at position `p`, and the rest of the
      pattern after it. */
  function AfterAlternative(s: string, p: nat, k: nat): (r: Option<Span>)
    requires p <= |s|
    ensures r.Some? ==> IsNameSpan(s, r.value)
  {
    if k < |Directions| && StartsWith(s[p..], Directions[k]) then AfterDirection(s, p + |Directions[k]|)
    else None
  }

  /** The pattern anchored at position `p`: the direction alternatives in
      the order written, the first that is present and lets the rest of the
      pattern match deciding. */
  function TryDirections(s: string, p: nat): (r: Option<Span>)
    requires p <= |s|
    ensures r.Some? ==> IsNameSpan(s, r.value)
  {
    FirstSuccessFrom(Alternatives(s, p), 0, |Directions|);
    FirstSuccess(Alternatives(s, p), 0, |Directions|)
  }

  /** The alternatives at position `p`, by index. */
  function Alternatives(s: string, p: nat): nat -> Option<Span>
    requires p <= |s|
  {
    (k: nat) => AfterAlternative(s, p, k)
  }

  /** At one position the alternatives are tried in the order written: no
      match means none works, and a match is the first that does. */
  lemma TryDirectionsIsFirstAlternative(s: string, p: nat)
    requires p <= |s|
    ensures TryDirections(s, p).None? ==> forall k :: 0 <= k < |Directions| ==> AfterAlternative(s, p, k).None?
    ensures TryDirections(s, p).Some? ==> exists k :: (0 <= k < |Directions| && AfterAlternative(s, p, k) == TryDirections(s, p)
      && forall j :: 0 <= j < k ==> AfterAlternative(s, p, j).None?)
  {
    var alt := Alternatives(s, p);
    if TryDirections(s, p).None? {
      FirstSuccessNone(alt, 0, |Directions|);
      forall k | 0 <= k < |Directions|
        ensures AfterAlternative(s, p, k).None?
      {
        assert alt(k).None?;
      }
    } else {
      var k := FirstSuccessFirst(alt, 0, |Directions|);
      forall j | 0 <= j < k
        ensures AfterAlternative(s, p, j).None?
      {
        assert alt(j).None?;
      }
      assert AfterAlternative(s, p, k) == TryDirections(s, p);
    }
  }

  /** The anchored pattern at each start position. */
  function Anchored(s: string): nat -> Option<Span> {
    (q: nat) => if q <= |s| then TryDirections(s, q) else None
  }

  /** `re.search`: start positions are tried left to right, and the first
      that matches decides. */
  function Search(s: string): (r: Option<Span>)
    ensures r.Some? ==> IsNameSpan(s, r.value)
  {
    FirstSuccessFrom(Anchored(s), 0, |s| + 1);
    FirstSuccess(Anchored(s), 0, |s| + 1)
  }

  /** A failed search means the anchored pattern matches nowhere. */
  lemma SearchFailsEverywhere(s: string)
    requires Search(s).None?
    ensures forall q :: 0 <= q <= |s| ==> TryDirections(s, q).None?
  {
    FirstSuccessNone(Anchored(s), 0, |s| + 1);
    forall q | 0 <= q <= |s|
      ensures TryDirections(s, q).None?
    {
      AnchoredAt(s, q);
    }
  }

  /** A successful search returns the match at the leftmost position where
      the anchored pattern matches. */
  lemma SearchIsLeftmost(s: string) returns (q: nat)
    requires Search(s).Some?
    ensures q <= |s| && TryDirections(s, q) == Search(s)
    ensures forall q' :: 0 <= q' < q ==> TryDirections(s, q').None?
  {
    q := FirstSuccessFirst(Anchored(s), 0, |s| + 1);
    AnchoredFirst(s, q, Search(s));
  }

  /** The first position where `Anchored` succeeds, read back in terms of
      the anchored pattern itself. */
  lemma AnchoredFirst(s: string, q: nat, r: Option<Span>)
    requires q < |s| + 1 && Anchored(s)(q) == r
    requires forall j :: 0 <= j < q ==> Anchored(s)(j).None?
    ensures q <= |s| && TryDirections(s, q) == r
    ensures forall q' :: 0 <= q' < q ==> TryDirections(s, q').None?
  {
    forall q' | 0 <= q' < q
      ensures TryDirections(s, q').None?
    {
      AnchoredAt(s, q');
    }
    AnchoredAt(s, q);
  }

  lemma AnchoredAt(s: string, q: nat)
    requires q <= |s|
    ensures Anchored(s)(q) == TryDirections(s, q)
  {
  }

  /** The town name of a trailer tail, if the pattern matches: group 1 with
      whitespace stripped and then trailing commas removed. It is never
      empty, opens with a capital letter, stays inside the name class, does
      not end with a comma, and is read from the tail where the group starts. */
  function ExtractCity(tail: string): (city: Option<string>)
    ensures city.None? <==> Search(tail).None?
    ensures city.Some? ==> OccursAt(tail, city.value, Search(tail).value.start)
    ensures city.Some? ==> forall k :: (Search(tail).value.start + |city.value| <= k < Search(tail).value.end
      ==> IsSpace(tail[k]) || tail[k] == ',')
    ensures city.Some? ==> exists m :: CutAt(tail[Search(tail).value.start..Search(tail).value.end], |city.value|, m)
    ensures city.Some? ==> |city.value| >= 1 && IsAsciiUpper(city.value[0])
    ensures city.Some? ==> forall j :: 0 <= j < |city.value| ==> InNameClass(city.value[j])
    ensures city.Some? ==> city.value[|city.value| - 1] != ','
    ensures city.Some? ==> exists a :: OccursAt(tail, city.value, a)
  {
    match Search(tail)
    case None => None
    case Some(span) =>
      NameOfSpan(tail, span);
      CutFromSpan(tail, span);
      Some(CleanName(tail[span.start..span.end]))
  }

  lemma NameOfSpan(tail: string, span: Span)
    requires IsNameSpan(tail, span)
    ensures var city := CleanName(tail[span.start..span.end]);
      && (forall j :: 0 <= j < |city| ==> InNameClass(city[j]))
      && OccursAt(tail, city, span.start)
  {
    var group := tail[span.start..span.end];
    GroupInClass(tail, span);
    var city := CleanName(group);
    assert forall j :: 0 <= j < |city| ==> city[j] == group[j];
    PrefixOfSlice(tail, span.start, span.end, city);
  }

  /** What cleaning cuts from the group is whitespace and commas of the tail. */
  lemma CutFromSpan(tail: string, span: Span)
    requires IsNameSpan(tail, span)
    ensures var city := CleanName(tail[span.start..span.end]);
      forall k :: span.start + |city| <= k < span.end ==> IsSpace(tail[k]) || tail[k] == ','
  {
    var group := tail[span.start..span.end];
    var city := CleanName(group);
    CutOfSlice(tail, span.start, span.end, |city|);
  }

  /** Characters past `n` in the slice `s[a..b]` are characters of `s` past
      `a + n`. */
  lemma CutOfSlice(s: string, a: nat, b: nat, n: nat)
    requires a <= b <= |s|
    requires forall k :: n <= k < b - a ==> IsSpace(s[a..b][k]) || s[a..b][k] == ','
    ensures forall k :: a + n <= k < b ==> IsSpace(s[k]) || s[k] == ','
  {
    forall k | a + n <= k < b
      ensures IsSpace(s[k]) || s[k] == ','
    {
      assert s[k] == s[a..b][k - a];
    }
  }

  /** Every character of a matched group is in the name class. */
  lemma GroupInClass(tail: string, span: Span)
    requires IsNameSpan(tail, span)
    ensures forall j :: 0 <= j < span.end - span.start ==> InNameClass(tail[span.start..span.end][j])
  {
    forall j | 0 <= j < span.end - span.start
      ensures InNameClass(tail[span.start..span.end][j])
    {
      assert tail[span.start..span.end][j] == tail[span.start + j];
    }
  }

  /** A prefix of the slice `s[a..b]` occurs in `s` at `a`. */
  lemma PrefixOfSlice(s: string, a: nat, b: nat, p: string)
    requires a <= b <= |s| && p <= s[a..b]
    ensures OccursAt(s, p, a)
  {
    assert s[a..a + |p|] == s[a..b][..|p|];
  }

  /** `group.strip().rstrip(',')` for a group that opens with a capital
      letter: that letter stays, and only the end is cut. What is cut is a
      run of commas followed by the group's whole trailing whitespace run. */
  function CleanName(group: string): (city: string)
    requires |group| >= 1 && IsAsciiUpper(group[0])
    ensures |city| >= 1 && city <= group && city[0] == group[0]
    ensures city[|city| - 1] != ','
    ensures forall k :: |city| <= k < |group| ==> IsSpace(group[k]) || group[k] == ','
    ensures exists m :: CutAt(group, |city|, m)
  {
    var stripped := Strip(group);
    CapitalSurvivesStrip(group);
    var city := TrimEnd(stripped, c => c == ',');
    assert |city| >= 1;
    assert city[0] == stripped[0];
    assert CutAt(group, |city|, |stripped|);
    city
  }

  /** Cleaning keeps `group[..n]`: `group[n..m]` are commas and `group[m..]`
      is the whole trailing whitespace run. */
  predicate CutAt(group: string, n: nat, m: nat) {
    && 1 <= n <= m <= |group|
    && (forall k :: n <= k < m ==> group[k] == ',')
    && (forall k :: m <= k < |group| ==> IsSpace(group[k]))
    && !IsSpace(group[m - 1])
  }

  /** Stripping a string that opens with a capital letter only cuts its end. */
  lemma CapitalSurvivesStrip(group: string)
    requires |group| >= 1 && IsAsciiUpper(group[0])
    ensures |Strip(group)| >= 1 && Strip(group) <= group && Strip(group)[0] == group[0]
    ensures Strip(group) == TrimEnd(group, IsSpace)
  {
    assert !IsSpace(group[0]);
    assert LeadingRun(group, IsSpace) == 0;
    assert TrimStart(group, IsSpace) == group;
  }
}

=== FILE: common.dfy ===
/**
  Small shared vocabulary: an optional value and "first element satisfying a
  predicate", the shape of every `for ... if ...: break` search in the scripts.
 */
module Common {

  datatype Option<T> = None | Some(value: T)

  function Min(a: int, b: int): int {
    if a <= b then a else b
  }

  /** Index of the first element of `s` satisfying `p`, or None when none does. */
  function FirstIndex<T>(s: seq<T>, p: T -> bool): (r: Option<nat>)
    ensures r.Some? ==> r.value < |s| && p(s[r.value])
    ensures r.Some? ==> forall j :: 0 <= j < r.value ==> !p(s[j])
    ensures r.None? <==> forall j :: 0 <= j < |s| ==> !p(s[j])
  {
    if |s| == 0 then None
    else if p(s[0]) then Some(0)
    else match FirstIndex(s[1..], p)
      case None =>
        assert forall j :: 1 <= j < |s| ==> s[j] == s[1..][j - 1];
        None
      case Some(k) =>
        assert forall j :: 1 <= j <= k ==> s[j] == s[1..][j - 1];
        Some(k + 1)
  }

  /** The first element of `s` satisfying `p`, or None when none does. */
  function FirstWhere<T>(s: seq<T>, p: T -> bool): (r: Option<T>)
    ensures r.Some? ==> exists k :: 0 <= k < |s| && s[k] == r.value && p(s[k]) && forall j :: 0 <= j < k ==> !p(s[j])
    ensures r.None? <==> forall j :: 0 <= j < |s| ==> !p(s[j])
  {
    match FirstIndex(s, p)
    case None => None
    case Some(k) => Some(s[k])
  }

  /** The first element satisfying `p` is the one at the first index where
      `p` holds. */
  lemma FirstWhereAt<T>(s: seq<T>, p: T -> bool, k: nat)
    requires k < |s| && p(s[k])
    requires forall j :: 0 <= j < k ==> !p(s[j])
    ensures FirstWhere(s, p) == Some(s[k])
  {
    assert FirstIndex(s, p) == Some(k);
  }

  /** Two tests that agree on every element find the same first element. */
  lemma FirstWhereAgree<T>(s: seq<T>, p: T -> bool, q: T -> bool)
    requires forall i :: 0 <= i < |s| ==> p(s[i]) == q(s[i])
    ensures FirstWhere(s, p) == FirstWhere(s, q)
  {
    match FirstIndex(s, p)
    case None =>
    case Some(k) => FirstWhereAt(s, q, k);
  }

  /** The value of an optional, as a list of zero or one element. */
  function AsSeq<T>(o: Option<T>): (r: seq<T>)
    ensures |r| <= 1
    ensures o.Some? ==> r == [o.value]
    ensures o.None? ==> r == []
  {
    match o
    case None => []
    case Some(x) => [x]
  }

  /** The present values of `s`, in order: the list a loop builds by
      appending whatever each step yields. */
  function Somes<T>(s: seq<Option<T>>): seq<T>
    decreases |s|
  {
    if |s| == 0 then [] else Somes(s[..|s| - 1]) + AsSeq(s[|s| - 1])
  }

  /** One more step of the loop appends what that step yields. */
  lemma SomesSnoc<T>(s: seq<Option<T>>, o: Option<T>)
    ensures Somes(s + [o]) == Somes(s) + AsSeq(o)
  {
    assert (s + [o])[..|s|] == s;
  }

  /** The same, for a growing prefix of a fixed list of steps. */
  lemma SomesPrefixStep<T>(s: seq<Option<T>>, i: nat)
    requires i < |s|
    ensures Somes(s[..i + 1]) == Somes(s[..i]) + AsSeq(s[i])
  {
    assert s[..i + 1] == s[..i] + [s[i]];
    SomesSnoc(s[..i], s[i]);
  }

  /** Every output element comes from exactly one yielding step, and the
      steps are met in order: `origin[k]` is the step of the `k`-th output,
      the origins increase, and every step that yields is an origin. */
  lemma {:induction false} SomesOrigins<T>(s: seq<Option<T>>) returns (origin: seq<nat>)
    ensures |origin| == |Somes(s)|
    ensures forall k :: 0 <= k < |origin| ==> origin[k] < |s| && s[origin[k]] == Some(Somes(s)[k])
    ensures forall k, l :: 0 <= k < l < |origin| ==> origin[k] < origin[l]
    ensures forall m :: 0 <= m < |s| && s[m].Some? ==> m in origin
    decreases |s|
  {
    if |s| == 0 {
      origin := [];
    } else {
      var n := |s| - 1;
      var front := s[..n];
      var before := SomesOrigins(front);
      assert s == front + [s[n]];
      SomesSnoc(front, s[n]);
      match s[n]
      case None =>
        origin := before;
      case Some(x) =>
        origin := before + [n];
        assert Somes(s)[|before|] == x;
        assert forall k :: 0 <= k < |before| ==> Somes(s)[k] == Somes(front)[k];
    }
  }

  lemma {:induction false} SomesNoLonger<T>(s: seq<Option<T>>)
    ensures |Somes(s)| <= |s|
    decreases |s|
  {
    if |s| > 0 {
      SomesNoLonger(s[..|s| - 1]);
    }
  }

  /** Every present value shows up among the present values. */
  lemma SomeIsPresent<T>(s: seq<Option<T>>, i: nat)
    requires i < |s| && s[i].Some?
    ensures s[i].value in Somes(s)
  {
    var origin := SomesOrigins(s);
    assert i in origin;
    var k :| 0 <= k < |origin| && origin[k] == i;
    assert Somes(s)[k] == s[i].value;
  }

  /** How many entries of `b` are true. */
  function CountTrue(b: seq<bool>): nat
    decreases |b|
  {
    if |b| == 0 then 0 else CountTrue(b[..|b| - 1]) + (if b[|b| - 1] then 1 else 0)
  }

  /** Counting the true entries is taking the multiplicity of `true`. */
  lemma {:induction false} CountTrueIsMultiplicity(b: seq<bool>)
    ensures CountTrue(b) == multiset(b)[true]
    decreases |b|
  {
    if |b| > 0 {
      var n := |b| - 1;
      assert b == b[..n] + [b[n]];
      CountTrueIsMultiplicity(b[..n]);
    }
  }

  /** When only the steps marked in `b` can yield, there are no more outputs
      than marked steps. */
  lemma {:induction false} SomesBoundedByMarks<T>(s: seq<Option<T>>, b: seq<bool>)
    requires |s| == |b|
    requires forall m :: 0 <= m < |s| && s[m].Some? ==> b[m]
    ensures |Somes(s)| <= CountTrue(b)
    decreases |s|
  {
    if |s| > 0 {
      var n := |s| - 1;
      assert forall m :: 0 <= m < n ==> s[..n][m] == s[m] && b[..n][m] == b[m];
      SomesBoundedByMarks(s[..n], b[..n]);
    }
  }

  /** A left fold: the state a loop ends in when each element of `xs` updates
      it by `f`. */
  function Fold<S, T>(f: (S, T) -> S, s: S, xs: seq<T>): S
    decreases |xs|
  {
    if |xs| == 0 then s else Fold(f, f(s, xs[0]), xs[1..])
  }

  /** Folding over `xs + ys` is folding over `xs`, then over `ys`. */
  lemma {:induction false} FoldAppend<S, T>(f: (S, T) -> S, s: S, xs: seq<T>, ys: seq<T>)
    ensures Fold(f, s, xs + ys) == Fold(f, Fold(f, s, xs), ys)
    decreases |xs|
  {
    if |xs| == 0 {
      assert xs + ys == ys;
    } else {
      assert (xs + ys)[0] == xs[0] && (xs + ys)[1..] == xs[1..] + ys;
      FoldAppend(f, f(s, xs[0]), xs[1..], ys);
    }
  }

  lemma FoldSingle<S, T>(f: (S, T) -> S, s: S, x: T)
    ensures Fold(f, s, [x]) == f(s, x)
  {
    assert [x][1..] == [];
  }

  /** Elements that leave the state as it is can be dropped from the front. */
  lemma {:induction false} FoldSkipsFixedPrefix<S, T>(f: (S, T) -> S, s: S, xs: seq<T>, n: nat)
    requires n <= |xs|
    requires forall k :: 0 <= k < n ==> f(s, xs[k]) == s
    ensures Fold(f, s, xs) == Fold(f, s, xs[n..])
    decreases n
  {
    if n == 0 {
      assert xs[n..] == xs;
    } else {
      var tail := xs[1..];
      assert Fold(f, s, xs) == Fold(f, s, tail) by {
        assert f(s, xs[0]) == s;
      }
      forall k | 0 <= k < n - 1
        ensures f(s, tail[k]) == s
      {
        assert tail[k] == xs[k + 1];
      }
      FoldSkipsFixedPrefix(f, s, tail, n - 1);
      assert tail[n - 1..] == xs[n..];
    }
  }

  /** Trying the alternatives `d`, `d + 1`, ... below `n` in turn: the
      result of the first that succeeds, or None when all fail. */
  function FirstSuccess<T>(alt: nat -> Option<T>, d: nat, n: nat): Option<T>
    decreases n - d
  {
    if d >= n then None
    else
      match alt(d)
      case Some(x) => Some(x)
      case None => FirstSuccess(alt, d + 1, n)
  }

  /** A successful search returns what some alternative returned. */
  lemma FirstSuccessFrom<T>(alt: nat -> Option<T>, d: nat, n: nat)
    ensures FirstSuccess(alt, d, n).Some? ==> exists k :: d <= k < n && alt(k) == FirstSuccess(alt, d, n)
  {
    if FirstSuccess(alt, d, n).Some? {
      var k := FirstSuccessFirst(alt, d, n);
    }
  }

  /** When the search fails, every alternative failed. */
  lemma {:induction false} FirstSuccessNone<T>(alt: nat -> Option<T>, d: nat, n: nat)
    requires FirstSuccess(alt, d, n).None?
    ensures forall k :: d <= k < n ==> alt(k).None?
    decreases n - d
  {
    if d < n {
      FirstSuccessNone(alt, d + 1, n);
    }
  }

  /** When the search succeeds, it returns the first alternative that
      succeeds. */
  lemma {:induction false} FirstSuccessFirst<T>(alt: nat -> Option<T>, d: nat, n: nat) returns (k: nat)
    requires FirstSuccess(alt, d, n).Some?
    ensures d <= k < n && alt(k) == FirstSuccess(alt, d, n)
    ensures forall j :: d <= j < k ==> alt(j).None?
    decreases n - d
  {
    if alt(d).Some? {
      k := d;
    } else {
      k := FirstSuccessFirst(alt, d + 1, n);
    }
  }
}

=== FILE: dates.dfy ===
/**
  Eight-digit `YYYYMMDD` date strings as the RRC files carry them: which ones
  name a real calendar day, their dashed `YYYY-MM-DD` display form, and why
  comparing two of them as strings agrees with comparing them as numbers.
 */
module Dates {
  import opened Text

  predicate AllDigits(s: string) {
    forall k :: 0 <= k < |s| ==> IsAsciiDigit(s[k])
  }

  function DigitValue(c: char): nat
    requires IsAsciiDigit(c)
  {
    c as int - '0' as int
  }

  function Pow10(n: nat): nat {
    if n == 0 then 1 else 10 * Pow10(n - 1)
  }

  /** The number a string of decimal digits denotes, most significant first. */
  function Value(s: string): nat
    requires AllDigits(s)
    decreases |s|
  {
    if |s| == 0 then 0 else DigitValue(s[0]) * Pow10(|s| - 1) + Value(s[1..])
  }

  lemma {:induction false} ValueBelowPow10(s: string)
    requires AllDigits(s)
    ensures Value(s) < Pow10(|s|)
    decreases |s|
  {
    if |s| > 0 {
      var d, p := DigitValue(s[0]), Pow10(|s| - 1);
      ValueBelowPow10(s[1..]);
      assert Value(s) == d * p + Value(s[1..]);
      assert Pow10(|s|) == 10 * p;
      MulMonotone(d, 9, p);
    }
  }

  /** A smaller leading digit decides the comparison whatever follows. */
  lemma LeadingDigitDecides(x: nat, y: nat, p: nat, u: nat, v: nat)
    requires x < y && u < p
    ensures x * p + u < y * p + v
  {
    assert (x + 1) * p <= y * p by {
      MulMonotone(x + 1, y, p);
    }
  }

  lemma MulMonotone(x: nat, y: nat, p: nat)
    requires x <= y
    ensures x * p <= y * p
  {
  }

  /** Comparing two equally long digit strings with Python's `>=` on `str`
      gives the same answer as comparing the numbers they denote; the cutoff
      filter over `YYYYMMDD` dates relies on exactly this. */
  lemma {:induction false} LexOrderIsNumericOrder(a: string, b: string)
    requires |a| == |b|
    requires AllDigits(a) && AllDigits(b)
    ensures LexLe(a, b) <==> Value(a) <= Value(b)
    decreases |a|
  {
    if |a| > 0 {
      var n := |a| - 1;
      assert AllDigits(a[1..]) && AllDigits(b[1..]);
      ValueBelowPow10(a[1..]);
      ValueBelowPow10(b[1..]);
      var x, y := DigitValue(a[0]), DigitValue(b[0]);
      assert Value(a) == x * Pow10(n) + Value(a[1..]);
      assert Value(b) == y * Pow10(n) + Value(b[1..]);
      if a[0] == b[0] {
        LexOrderIsNumericOrder(a[1..], b[1..]);
      } else if a[0] < b[0] {
        LeadingDigitDecides(x, y, Pow10(n), Value(a[1..]), Value(b[1..]));
      } else {
        LeadingDigitDecides(y, x, Pow10(n), Value(b[1..]), Value(a[1..]));
      }
    }
  }

  predicate IsLeapYear(y: int) {
    (y % 4 == 0 && y % 100 != 0) || y % 400 == 0
  }

  function DaysInMonth(y: int, m: int): int
    requires 1 <= m <= 12
  {
    if m == 2 then (if IsLeapYear(y) then 29 else 28)
    else if m == 4 || m == 6 || m == 9 || m == 11 then 30
    else 31
  }

  function Year(d: string): nat
    requires |d| == 8 && AllDigits(d)
  {
    Value(d[..4])
  }

  function Month(d: string): nat
    requires |d| == 8 && AllDigits(d)
  {
    Value(d[4..6])
  }

  function Day(d: string): nat
    requires |d| == 8 && AllDigits(d)
  {
    Value(d[6..])
  }

  /** The strings `datetime.strptime(d, '%Y%m%d')` accepts among eight-character
      digit strings: year 1..9999, month 01..12, and a day that exists in that
      month of the proleptic Gregorian calendar. */
  predicate IsCalendarDate(d: string) {
    && |d| == 8
    && AllDigits(d)
    && 1 <= Year(d)
    && 1 <= Month(d) <= 12
    && 1 <= Day(d) <= DaysInMonth(Year(d), Month(d))
  }

  /** `YYYYMMDD` shown as `YYYY-MM-DD`; deleting the two dashes gives the
      original back. */
  function Dashed(d: string): (r: string)
    requires |d| == 8
    ensures |r| == 10 && r[4] == '-' && r[7] == '-'
    ensures r[..4] + r[5..7] + r[8..] == d
  {
    var r := d[..4] + "-" + d[4..6] + "-" + d[6..];
    assert r[..4] == d[..4] && r[5..7] == d[4..6] && r[8..] == d[6..];
    assert d == d[..4] + d[4..6] + d[6..];
    r
  }
}

=== FILE: enforcement.dfy ===
/**
  `process_enforcement_data`: the kept violation rows turned into the
  dashboard summary. The rows are sorted newest first (a stable sort, so
  rows of the same date keep their file order), the ten newest become
  display items, and the whole list is counted by enforcement action, by
  county, by rule and by the major-violation flag. The run timestamp is not
  part of this model.
 */
module Enforcement {
  import opened Common
  import opened Text
  import opened Dates
  import opened Ranking
  import opened ViolationStream

  /** One display item, the fields the dashboard shows. */
  datatype Item = Item(
    date: string,
    operator: string,
    county: string,
    headline: string,
    kind: string,
    rule: string,
    ruleDescription: string,
    status: string,
    major: bool)

  datatype Summary = Summary(
    totalRecent: nat,
    items: seq<Item>,
    byType: seq<(string, nat)>,
    byStatus: seq<(string, nat)>,
    byCounty: seq<(string, nat)>,
    majorViolations: nat)

  /** How many items the summary shows, and how many counties and rule
      descriptions it ranks. */
  const ItemCount: nat := 10
  const CountyCount: nat := 20
  const TypeCount: nat := 10

  function DateOf(row: Row): string {
    Get(row, DateColumn, "")
  }

  /** The sort key of `violations.sort(..., reverse=True)`: `a` sorts no
      later than `b` when its date string is lexically at least `b`'s. */
  predicate NewerOrSame(a: Row, b: Row) {
    LexLe(DateOf(b), DateOf(a))
  }

  lemma NewerOrSameIsTotalPreorder()
    ensures TotalPreorder(NewerOrSame)
  {
    forall a: Row, b: Row
      ensures NewerOrSame(a, b) || NewerOrSame(b, a)
    {
      LexLeTotal(DateOf(a), DateOf(b));
    }
    forall a: Row, b: Row, c: Row | NewerOrSame(a, b) && NewerOrSame(b, c)
      ensures NewerOrSame(a, c)
    {
      LexLeTransitive(DateOf(c), DateOf(b), DateOf(a));
    }
  }

  /** The rows newest first, ties in their original order. */
  function NewestFirst(rows: seq<Row>): (sorted: seq<Row>)
    ensures |sorted| == |rows| && multiset(sorted) == multiset(rows)
  {
    NewerOrSameIsTotalPreorder();
    var sorted := SortDesc(NewerOrSame, rows);
    assert |sorted| == |multiset(rows)|;
    sorted
  }

  /** Newest first: along the sorted list the date strings never increase. */
  lemma NewestFirstIsDescending(rows: seq<Row>)
    ensures var sorted := NewestFirst(rows);
      forall i, j :: 0 <= i < j < |sorted| ==> LexLe(DateOf(sorted[j]), DateOf(sorted[i]))
  {
    NewerOrSameIsTotalPreorder();
    var sorted := SortDesc(NewerOrSame, rows);
    assert forall i, j :: 0 <= i < j < |sorted| ==> NewerOrSame(sorted[i], sorted[j]);
  }

  /** Sorting keeps rows of equal date in the order they were read. */
  lemma SortKeepsSameDateOrder(rows: seq<Row>, x: Row)
    ensures Peers(NewerOrSame, NewestFirst(rows), x) == Peers(NewerOrSame, rows, x)
  {
    NewerOrSameIsTotalPreorder();
    SortDescStable(NewerOrSame, rows, x);
  }

  /** An eight-character date `YYYYMMDD` is shown as `YYYY-MM-DD`; any other
      date string is shown as it is. */
  function FormatDate(d: string): (r: string)
    ensures |d| == 8 ==> |r| == 10 && r[4] == '-' && r[7] == '-' && r[..4] + r[5..7] + r[8..] == d
    ensures |d| != 8 ==> r == d
  {
    if |d| == 8 then Dashed(d) else d
  }

  /** `f"{operator}: {rule_desc}"`, followed by `f" - {county} County"`
      exactly when the county is non-empty. */
  function Headline(operator: string, ruleDesc: string, county: string): (h: string)
    ensures StartsWith(h, operator + ": " + ruleDesc)
    ensures county == "" <==> h == operator + ": " + ruleDesc
    ensures county != "" ==> h[|operator| + 2 + |ruleDesc|..] == " - " + county + " County"
  {
    var lead := operator + ": " + ruleDesc;
    var h := lead + (if county != "" then " - " + county + " County" else "");
    assert h[..|lead|] == lead;
    h
  }

  /** The display item of one row, each missing column replaced by the
      default the summary uses for it. */
  function ItemOf(row: Row): (it: Item)
    ensures it.date == FormatDate(DateOf(row))
    ensures ("OPERATOR_NAME" in row ==> it.operator == row["OPERATOR_NAME"])
      && ("OPERATOR_NAME" !in row ==> it.operator == "Unknown")
    ensures ("COUNTY" in row ==> it.county == row["COUNTY"]) && ("COUNTY" !in row ==> it.county == "")
    ensures ("LAST_ENF_ACTION" in row ==> it.status == row["LAST_ENF_ACTION"])
      && ("LAST_ENF_ACTION" !in row ==> it.status == "Unknown")
    ensures ("VIOLATED_RULE" in row ==> it.rule == row["VIOLATED_RULE"]) && ("VIOLATED_RULE" !in row ==> it.rule == "")
    ensures ("VIOLATED_RULE_DESC" in row ==> it.ruleDescription == row["VIOLATED_RULE_DESC"])
      && ("VIOLATED_RULE_DESC" !in row ==> it.ruleDescription == "")
    ensures it.headline == Headline(it.operator, it.ruleDescription, it.county)
    ensures it.kind == "violation"
    ensures it.major <==> "MAJOR_VIOL_IND" in row && row["MAJOR_VIOL_IND"] == "Y"
  {
    var operator := Get(row, "OPERATOR_NAME", "Unknown");
    var county := Get(row, "COUNTY", "");
    var ruleDesc := Get(row, "VIOLATED_RULE_DESC", "");
    Item(
      FormatDate(DateOf(row)),
      operator,
      county,
      Headline(operator, ruleDesc, county),
      "violation",
      Get(row, "VIOLATED_RULE", ""),
      ruleDesc,
      Get(row, "LAST_ENF_ACTION", "Unknown"),
      IsMajor(row))
  }

  /** The counting keys of the aggregation loop, each with its own default. */
  function StatusOf(row: Row): string {
    Get(row, "LAST_ENF_ACTION", "Unknown")
  }

  function CountyKeyOf(row: Row): string {
    Get(row, "COUNTY", "Unknown")
  }

  function RuleOf(row: Row): string {
    Get(row, "VIOLATED_RULE_DESC", "Other")
  }

  predicate IsMajor(row: Row) {
    Get(row, "MAJOR_VIOL_IND", "N") == "Y"
  }

  predicate NonEmpty(s: string) {
    s != ""
  }

  /** `result["items"]`: the ten newest rows as display items, newest
      first; item `i` shows the `i`-th row of the sorted list. */
  function Items(rows: seq<Row>): (items: seq<Item>)
    ensures |items| == Min(ItemCount, |rows|)
    ensures forall i :: 0 <= i < |items| ==> items[i] == ItemOf(NewestFirst(rows)[i])
  {
    var sorted := NewestFirst(rows);
    Map(ItemOf, sorted[..Min(ItemCount, |sorted|)])
  }

  /** No row cut from the first `m` of the sorted list is newer than a row
      kept: the items are the newest rows there are. */
  lemma NewestRowsFirst(rows: seq<Row>, m: nat)
    requires m <= |rows|
    ensures var sorted := NewestFirst(rows);
      forall i, y :: 0 <= i < m && y in multiset(rows) - multiset(sorted[..m]) ==> LexLe(DateOf(y), DateOf(sorted[i]))
  {
    var sorted := NewestFirst(rows);
    NewerOrSameIsTotalPreorder();
    SortedPrefixDominates(NewerOrSame, sorted, m);
    forall i, y | 0 <= i < m && y in multiset(rows) - multiset(sorted[..m])
      ensures LexLe(DateOf(y), DateOf(sorted[i]))
    {
      assert sorted[i] in sorted[..m];
      assert NewerOrSame(sorted[i], y);
    }
  }

  /** `by_status`: every violation counted under its enforcement action
      ("Unknown" when the column is missing), one entry per action some row
      carries, each with the number of rows carrying it; the counts add up
      to the number of rows. The dict keeps the actions in the order they
      first occur in the sorted list. */
  function ByStatus(rows: seq<Row>): (r: seq<(string, nat)>)
    ensures DistinctKeys(r)
    ensures forall i :: 0 <= i < |r| ==> r[i].0 in Map(StatusOf, rows)
    ensures InFirstAppearanceOrder(r, Map(StatusOf, NewestFirst(rows)))
    ensures forall i :: 0 <= i < |r| ==> r[i].1 == multiset(Map(StatusOf, rows))[r[i].0]
    ensures forall row :: row in rows ==> StatusOf(row) in Keys(r)
    ensures SumCounts(r) == |rows|
  {
    var sorted := NewestFirst(rows);
    var keys := Map(StatusOf, sorted);
    MapPermutation(StatusOf, sorted, rows);
    var t := Tally(keys);
    forall i | 0 <= i < |t|
      ensures t[i].0 in Map(StatusOf, rows)
    {
      assert t[i].0 in multiset(keys);
    }
    forall row | row in rows
      ensures StatusOf(row) in Keys(t)
    {
      assert row in multiset(sorted);
      var i :| 0 <= i < |sorted| && sorted[i] == row;
      assert keys[i] == StatusOf(row);
    }
    t
  }

  /** `major_violations`: the number of rows whose major-violation flag is
      "Y". */
  function MajorCount(rows: seq<Row>): (n: nat)
    ensures n == multiset(Map(IsMajor, rows))[true]
    ensures n <= |rows|
  {
    var sorted := NewestFirst(rows);
    var majors := Map(IsMajor, sorted);
    CountTrueIsMultiplicity(majors);
    MapPermutation(IsMajor, sorted, rows);
    assert multiset(majors)[true] <= |multiset(majors)|;
    CountTrue(majors)
  }

  /** `by_county`: counties ranked by their number of violations, highest
      first, at most twenty. A row without the column counts under
      "Unknown", a row with an empty county is not counted, each entry's
      count is exact, and a county left out has no more violations than any
      shown. */
  function ByCounty(rows: seq<Row>): (r: seq<(string, nat)>)
    ensures |r| == Min(CountyCount, |Counted(Map(CountyKeyOf, rows), NonEmpty)|)
    ensures DistinctKeys(r)
    ensures forall i :: 0 <= i < |r| ==> r[i].0 in Map(CountyKeyOf, rows)
    ensures forall i, j :: 0 <= i < j < |r| ==> r[i].1 >= r[j].1
    ensures forall i :: 0 <= i < |r| ==> r[i].0 != "" && r[i].1 == multiset(Map(CountyKeyOf, rows))[r[i].0]
    ensures forall i, c :: (0 <= i < |r| && c in Map(CountyKeyOf, rows) && c != "" && c !in Keys(r)
      ==> r[i].1 >= multiset(Map(CountyKeyOf, rows))[c])
  {
    var sorted := NewestFirst(rows);
    MapPermutation(CountyKeyOf, sorted, rows);
    CountedPermutation(Map(CountyKeyOf, sorted), Map(CountyKeyOf, rows), NonEmpty);
    KeptKeysPermutation(Map(CountyKeyOf, sorted), Map(CountyKeyOf, rows));
    TopCounts(Map(CountyKeyOf, sorted), NonEmpty, CountyCount)
  }

  /** `by_type`: rule descriptions ("Other" when the column is missing)
      ranked the same way, at most ten. */
  function ByType(rows: seq<Row>): (r: seq<(string, nat)>)
    ensures |r| == Min(TypeCount, |Counted(Map(RuleOf, rows), AnyKey)|)
    ensures DistinctKeys(r)
    ensures forall i :: 0 <= i < |r| ==> r[i].0 in Map(RuleOf, rows)
    ensures forall i, j :: 0 <= i < j < |r| ==> r[i].1 >= r[j].1
    ensures forall i :: 0 <= i < |r| ==> r[i].1 == multiset(Map(RuleOf, rows))[r[i].0]
    ensures forall i, c :: (0 <= i < |r| && c in Map(RuleOf, rows) && c !in Keys(r)
      ==> r[i].1 >= multiset(Map(RuleOf, rows))[c])
  {
    var sorted := NewestFirst(rows);
    MapPermutation(RuleOf, sorted, rows);
    CountedPermutation(Map(RuleOf, sorted), Map(RuleOf, rows), AnyKey);
    KeptKeysPermutation(Map(RuleOf, sorted), Map(RuleOf, rows));
    TopCounts(Map(RuleOf, sorted), AnyKey, TypeCount)
  }

  /** No filter: `by_type` counts every rule description. */
  predicate AnyKey(s: string) {
    true
  }

  /** A key of one list is a key of any reordering of it. */
  lemma KeptKeysPermutation(a: seq<string>, b: seq<string>)
    requires multiset(a) == multiset(b)
    ensures forall k :: k in a ==> k in b
  {
    forall k | k in a ensures k in b {
      assert k in multiset(a);
    }
  }

  /** The summary; None for an empty list of violations. */
  function ProcessEnforcement(rows: seq<Row>): (r: Option<Summary>)
    ensures r.None? <==> |rows| == 0
    ensures r.Some? ==> r.value.totalRecent == |rows|
    ensures r.Some? ==> |r.value.items| == Min(ItemCount, |rows|)
    ensures r.Some? ==> forall i :: 0 <= i < |r.value.items| ==> r.value.items[i] == ItemOf(NewestFirst(rows)[i])
    ensures r.Some? ==> SumCounts(r.value.byStatus) == |rows|
    ensures r.Some? ==> |r.value.byCounty| <= CountyCount && |r.value.byType| <= TypeCount
    ensures r.Some? ==> r.value.majorViolations == multiset(Map(IsMajor, rows))[true]
    ensures r.Some? ==> r.value.byStatus == ByStatus(rows)
    ensures r.Some? ==> r.value.byCounty == ByCounty(rows)
    ensures r.Some? ==> r.value.byType == ByType(rows)
  {
    if |rows| == 0 then None
    else Some(Summary(|rows|, Items(rows), ByType(rows), ByStatus(rows), ByCounty(rows), MajorCount(rows)))
  }
}

=== FILE: geography.dfy ===
/**
  The static geography tables of the permit parser: Texas county to
  production basin, and the town names seen in permit trailers to their
  county. Both are fixed at load time and only ever read.
 */
module Geography {
  import opened Common
  import opened Text

  // The county-to-basin table, one set of (upper-case) county names per
  // basin, in the order the table lists them.

  const PermianCounties: set<string> := {
    "ANDREWS", "BORDEN", "CRANE", "DAWSON", "ECTOR", "GAINES", "GLASSCOCK", "HOWARD",
    "LOVING", "MARTIN", "MIDLAND", "MITCHELL", "PECOS", "REAGAN", "REEVES", "SCURRY",
    "STERLING", "TERRY", "UPTON", "WARD", "WINKLER", "YOAKUM", "CULBERSON", "JEFF DAVIS"
  }

  const EagleFordCounties: set<string> := {
    "ATASCOSA", "BEE", "DEWITT", "DIMMIT", "FRIO", "GONZALES", "KARNES", "LA SALLE",
    "LAVACA", "LIVE OAK", "MAVERICK", "MCMULLEN", "WEBB", "WILSON", "ZAVALA"
  }

  const HaynesvilleCounties: set<string> := {
    "BOWIE", "CASS", "GREGG", "HARRISON", "MARION", "PANOLA", "RUSK", "SHELBY", "UPSHUR"
  }

  const AnadarkoCounties: set<string> := {
    "CARSON", "GRAY", "HANSFORD", "HARTLEY", "HEMPHILL", "HUTCHINSON", "LIPSCOMB", "MOORE",
    "OCHILTREE", "OLDHAM", "POTTER", "RANDALL", "ROBERTS", "SHERMAN", "WHEELER"
  }

  const BarnettCounties: set<string> := {
    "DENTON", "HOOD", "JACK", "JOHNSON", "MONTAGUE", "PALO PINTO", "PARKER", "TARRANT",
    "WISE"
  }

  const GraniteWashCounties: set<string> := {
    "COLLINGSWORTH", "DONLEY"
  }

  datatype Basin = Permian | EagleFord | Haynesville | Anadarko | Barnett | GraniteWash

  /** The basin's name as the dashboard shows it. */
  function BasinName(b: Basin): string {
    match b
    case Permian => "Permian"
    case EagleFord => "Eagle Ford"
    case Haynesville => "Haynesville"
    case Anadarko => "Anadarko"
    case Barnett => "Barnett"
    case GraniteWash => "Granite Wash"
  }

  function Counties(b: Basin): set<string> {
    match b
    case Permian => PermianCounties
    case EagleFord => EagleFordCounties
    case Haynesville => HaynesvilleCounties
    case Anadarko => AnadarkoCounties
    case Barnett => BarnettCounties
    case GraniteWash => GraniteWashCounties
  }

  /** No basin is called "Other", the name of the fallback. */
  lemma BasinNameIsNotOther(b: Basin)
    ensures BasinName(b) != "Other"
  {
    assert |BasinName(b)| != |"Other"|;
  }

  /** County name (upper case) to basin. */
  const TexasBasins: map<string, Basin> :=
    map c | c in PermianCounties + EagleFordCounties + HaynesvilleCounties
                 + AnadarkoCounties + BarnettCounties + GraniteWashCounties
      :: if c in PermianCounties then Permian
         else if c in EagleFordCounties then EagleFord
         else if c in HaynesvilleCounties then Haynesville
         else if c in AnadarkoCounties then Anadarko
         else if c in BarnettCounties then Barnett
         else GraniteWash

  /** Every county of the table is listed under the basin it maps to. */
  lemma TexasBasinsSound(c: string)
    requires c in TexasBasins
    ensures c in Counties(TexasBasins[c])
  {
  }

  /** Town name as printed in permit trailers to county name. */
  const CityToCounty: map<string, string> := map[
    "ANDREWS" := "ANDREWS", "BIG SPRING" := "HOWARD", "MIDLAND" := "MIDLAND", "ODESSA" := "ECTOR",
    "LAMESA" := "DAWSON", "PECOS" := "REEVES", "MONAHANS" := "WARD", "CRANE" := "CRANE",
    "SEMINOLE" := "GAINES", "STANTON" := "MARTIN", "KERMIT" := "WINKLER", "MENTONE" := "LOVING",
    "RANKIN" := "UPTON", "STERLING CITY" := "STERLING", "BIG LAKE" := "REAGAN", "SNYDER" := "SCURRY",
    "COLORADO CITY" := "MITCHELL", "BROWNFIELD" := "TERRY", "PLAINS" := "YOAKUM", "GARDEN CITY" := "GLASSCOCK",
    "GAIL" := "BORDEN", "VAN HORN" := "CULBERSON", "FORT DAVIS" := "JEFF DAVIS", "JOURDANTON" := "ATASCOSA",
    "BEEVILLE" := "BEE", "CUERO" := "DEWITT", "CARRIZO SPRINGS" := "DIMMIT", "PEARSALL" := "FRIO",
    "GONZALES" := "GONZALES", "KARNES CITY" := "KARNES", "COTULLA" := "LA SALLE", "HALLETTSVILLE" := "LAVACA",
    "GEORGE WEST" := "LIVE OAK", "EAGLE PASS" := "MAVERICK", "TILDEN" := "MCMULLEN", "LAREDO" := "WEBB",
    "FLORESVILLE" := "WILSON", "CRYSTAL CITY" := "ZAVALA", "TEXARKANA" := "BOWIE", "LINDEN" := "CASS",
    "LONGVIEW" := "GREGG", "MARSHALL" := "HARRISON", "JEFFERSON" := "MARION", "CARTHAGE" := "PANOLA",
    "HENDERSON" := "RUSK", "CENTER" := "SHELBY", "GILMER" := "UPSHUR", "PANHANDLE" := "CARSON",
    "PAMPA" := "GRAY", "SPEARMAN" := "HANSFORD", "HARTLEY" := "HARTLEY", "CANADIAN" := "HEMPHILL",
    "BORGER" := "HUTCHINSON", "LIPSCOMB" := "LIPSCOMB", "DUMAS" := "MOORE", "PERRYTON" := "OCHILTREE",
    "VEGA" := "OLDHAM", "AMARILLO" := "POTTER", "CANYON" := "RANDALL", "MIAMI" := "ROBERTS",
    "STRATFORD" := "SHERMAN", "WHEELER" := "WHEELER", "DENTON" := "DENTON", "GRANBURY" := "HOOD",
    "JACKSBORO" := "JACK", "CLEBURNE" := "JOHNSON", "MONTAGUE" := "MONTAGUE", "PALO PINTO" := "PALO PINTO",
    "WEATHERFORD" := "PARKER", "FORT WORTH" := "TARRANT", "DECATUR" := "WISE", "WELLINGTON" := "COLLINGSWORTH",
    "CLARENDON" := "DONLEY", "FORT STOCKTON" := "PECOS", "MCCAMEY" := "UPTON", "IRAAN" := "PECOS",
    "ANDREWS, TX" := "ANDREWS"
  ]

  /** `get_basin`: an absent or empty county is "Other"; otherwise the county
      is upper-cased and stripped and looked up, "Other" when unmapped. */
  function GetBasin(county: Option<string>): (basin: string)
    ensures county.None? || county == Some("") ==> basin == "Other"
    ensures basin != "Other" <==> county.Some? && county.value != "" && Strip(Upper(county.value)) in TexasBasins
    ensures basin != "Other" ==> (var key := Strip(Upper(county.value));
      basin == BasinName(TexasBasins[key]) && key in Counties(TexasBasins[key]))
  {
    match county
    case None => "Other"
    case Some(c) =>
      if c == "" then "Other"
      else
        var key := Strip(Upper(c));
        if key in TexasBasins then
          BasinNameIsNotOther(TexasBasins[key]);
          TexasBasinsSound(key);
          BasinName(TexasBasins[key])
        else "Other"
  }

  /** The county recorded for a trailer town: the town itself, then the town
      with ", TX" appended, else the empty string. */
  function CountyOf(city: string): (county: string)
    ensures county == "" || county in CityToCounty.Values
    ensures city in CityToCounty ==> county == CityToCounty[city]
    ensures city !in CityToCounty && city + ", TX" in CityToCounty ==> county == CityToCounty[city + ", TX"]
    ensures county != "" ==> city in CityToCounty || city + ", TX" in CityToCounty
  {
    if city in CityToCounty then CityToCounty[city]
    else if city + ", TX" in CityToCounty then CityToCounty[city + ", TX"]
    else ""
  }
}

=== FILE: permits.dfy ===
/**
  The drilling-permit file parser: a fixed-width text file of "01" master
  records (issue date, operator) each optionally followed, within a short
  window, by an "02" trailer whose free text names the nearest town.
  `ParseDaf420` is the scan as written, two indices and all; `PermitsFrom`
  is the same result described one master line at a time, and the lemmas
  below are stated against that description.
 */
module Permits {
  import opened Common
  import opened Text
  import opened Dates
  import opened Geography
  import opened CityPattern

  datatype Permit = Permit(permitDate: string, county: string, city: string, basin: string, operator: string)

  /** How many lines after a master the trailer search may look at. */
  const TrailerWindow: nat := 9

  /** A master record: an "01" line at least 98 characters long once trailing
      whitespace is removed. */
  predicate IsMaster(line: string) {
    StartsWith(RStrip(line), "01") && |RStrip(line)| >= 98
  }

  /** A trailer record: an "02" line longer than 200 characters once trailing
      whitespace is removed. */
  predicate IsTrailer(line: string) {
    StartsWith(RStrip(line), "02") && |RStrip(line)| > 200
  }

  /** Any line whose stripped form opens with "01" ends the trailer search. */
  predicate StopsSearch(line: string) {
    StartsWith(RStrip(line), "01")
  }

  /** One past the last index the trailer search of the master at `i` may
      examine. */
  function WindowEnd(lines: seq<string>, i: nat): nat {
    Min(i + TrailerWindow + 1, |lines|)
  }

  /** The trailer of the master at `i`, searching from `j`: the first trailer
      in the window, unless an "01" line comes first. */
  function FindTrailer(lines: seq<string>, i: nat, j: nat): (r: Option<nat>)
    requires i < j
    ensures r.Some? ==> j <= r.value < WindowEnd(lines, i) && IsTrailer(lines[r.value])
    ensures r.Some? ==> forall m :: j <= m < r.value ==> !IsTrailer(lines[m]) && !StopsSearch(lines[m])
    ensures r.None? ==> forall m :: (j <= m < WindowEnd(lines, i) && IsTrailer(lines[m])
      ==> exists m' :: j <= m' < m && StopsSearch(lines[m']))
    decreases |lines| - j
  {
    if j >= WindowEnd(lines, i) then None
    else if IsTrailer(lines[j]) then Some(j)
    else if StopsSearch(lines[j]) then None
    else FindTrailer(lines, i, j + 1)
  }

  /** The free text of a trailer from column 180 on, where the town is
      named. */
  function TrailerTail(line: string): string
    requires IsTrailer(line)
  {
    RStrip(line)[180..]
  }

  /** City and county of the master at `i`: taken from its trailer when the
      trailer's tail (from column 180) names a town, else both empty. The
      county of a town is always the one the town table gives it. */
  function Location(lines: seq<string>, i: nat): (loc: (string, string))
    requires i < |lines|
    ensures loc.1 == "" || loc.1 in CityToCounty.Values
    ensures loc.0 != "" ==> loc.1 == CountyOf(loc.0)
    ensures FindTrailer(lines, i, i + 1).None? ==> loc == ("", "")
    ensures FindTrailer(lines, i, i + 1).Some? ==>
      var tail := TrailerTail(lines[FindTrailer(lines, i, i + 1).value]);
      && (ExtractCity(tail).None? ==> loc == ("", ""))
      && (ExtractCity(tail).Some? ==> loc.0 == ExtractCity(tail).value)
    ensures loc.0 == "" ==> loc.1 == ""
  {
    match FindTrailer(lines, i, i + 1)
    case None => ("", "")
    case Some(t) =>
      match ExtractCity(TrailerTail(lines[t]))
      case None => ("", "")
      case Some(city) => (city, CountyOf(city))
  }


  /** The permit the line at `i` steps, if any. */
  function PermitAt(lines: seq<string>, i: nat): (p: Option<Permit>)
    requires i < |lines|
    ensures p.Some? ==> IsMaster(lines[i])
    ensures p.Some? ==> p.value.operator == Strip(RStrip(lines[i])[66..98]) && p.value.operator != ""
    ensures p.Some? ==> (IsCalendarDate(RStrip(lines[i])[58..66])
      && p.value.permitDate == Dashed(RStrip(lines[i])[58..66]))
    ensures p.Some? ==> (p.value.city, p.value.county) == Location(lines, i)
    ensures p.Some? ==> p.value.basin == GetBasin(Some(p.value.county))
    ensures (IsMaster(lines[i]) && IsCalendarDate(RStrip(lines[i])[58..66])
      && Strip(RStrip(lines[i])[66..98]) != "") ==> p.Some?
  {
    if !IsMaster(lines[i]) then None
    else
      var line := RStrip(lines[i]);
      var date := line[58..66];
      var operator := Strip(line[66..98]);
      var (city, county) := Location(lines, i);
      if IsCalendarDate(date) && operator != "" then
        Some(Permit(Dashed(date), county, city, GetBasin(Some(county)), operator))
      else None
  }

  /** `PermitAt` on a master line, with the pieces named. */
  lemma PermitOfMaster(lines: seq<string>, i: nat)
    requires i < |lines| && IsMaster(lines[i])
    ensures var line := RStrip(lines[i]);
      var date := line[58..66];
      var operator := Strip(line[66..98]);
      var (city, county) := Location(lines, i);
      PermitAt(lines, i)
        == if IsCalendarDate(date) && operator != ""
           then Some(Permit(Dashed(date), county, city, GetBasin(Some(county)), operator))
           else None
  {
  }

  /** What each line steps, in line order. */
  function Yields(lines: seq<string>): (r: seq<Option<Permit>>)
    ensures |r| == |lines|
    ensures forall k :: 0 <= k < |lines| ==> r[k] == PermitAt(lines, k)
  {
    seq(|lines|, k requires 0 <= k < |lines| => PermitAt(lines, k))
  }

  /** The permits of a file, in the order their master lines appear. */
  function Parsed(lines: seq<string>): seq<Permit> {
    Somes(Yields(lines))
  }

  /** `parse_daf420` on the decoded text: split on "\n", then one pass over
      the lines, skipping all but master records. */
  method ParseDaf420(text: string) returns (permits: seq<Permit>)
    ensures permits == Parsed(Split(text, '\n'))
  {
    var lines := Split(text, '\n');
    permits := [];
    var i := 0;
    while i < |lines|
      invariant i <= |lines|
      invariant permits == Somes(Yields(lines)[..i])
    {
      var line := RStrip(lines[i]);
      if !StartsWith(line, "01") || |line| < 98 {
        ScanStep(lines, i, permits, []);
        i := i + 1;
        continue;
      }
      var emitted := MasterRecord(lines, i);
      ScanStep(lines, i, permits, emitted);
      permits := permits + emitted;
      i := i + 1;
    }
    assert Yields(lines)[..i] == Yields(lines);
  }

  /** One turn of the outer loop appends what the line at `i` yields. */
  lemma ScanStep(lines: seq<string>, i: nat, done: seq<Permit>, emitted: seq<Permit>)
    requires i < |lines|
    requires done == Somes(Yields(lines)[..i])
    requires emitted == AsSeq(PermitAt(lines, i))
    ensures done + emitted == Somes(Yields(lines)[..i + 1])
  {
    SomesPrefixStep(Yields(lines), i);
  }

  /** The body of the scan for one master record: read the date and
      operator columns, look for the trailer, and emit a permit when the date
      parses and the operator is not blank. */
  method MasterRecord(lines: seq<string>, i: nat) returns (emitted: seq<Permit>)
    requires i < |lines| && IsMaster(lines[i])
    ensures emitted == AsSeq(PermitAt(lines, i))
  {
    var line := RStrip(lines[i]);
    var dateStr := line[58..66];
    var operator := Strip(line[66..98]);
    var city, county := ScanTrailer(lines, i);

    var permitDate: Option<string> := None;
    if |dateStr| == 8 && AllDigits(dateStr) && IsCalendarDate(dateStr) {
      permitDate := Some(Dashed(dateStr));
    }
    PermitOfMaster(lines, i);
    emitted := [];
    if permitDate.Some? && operator != "" {
      emitted := [Permit(permitDate.value, county, city, GetBasin(Some(county)), operator)];
    }
  }

  /** The look-ahead for the trailer of the master at `i`: at most nine
      lines, stopping at the first trailer or at the next "01" line. */
  method ScanTrailer(lines: seq<string>, i: nat) returns (city: string, county: string)
    requires i < |lines|
    ensures (city, county) == Location(lines, i)
  {
    county, city := "", "";
    var j := i + 1;
    while j < Min(i + 10, |lines|)
      invariant i + 1 <= j
      invariant FindTrailer(lines, i, j) == FindTrailer(lines, i, i + 1)
    {
      var trailer := RStrip(lines[j]);
      if StartsWith(trailer, "02") && |trailer| > 200 {
        var tail := trailer[180..];
        match ExtractCity(tail) {
          case Some(c) =>
            city := c;
            county := CountyOf(c);
          case None =>
        }
        return;
      } else if StartsWith(trailer, "01") {
        return;
      }
      j := j + 1;
    }
  }

  /** Which lines are master records. */
  function MasterMarks(lines: seq<string>): (b: seq<bool>)
    ensures |b| == |lines|
    ensures forall k :: 0 <= k < |lines| ==> (b[k] <==> IsMaster(lines[k]))
  {
    seq(|lines|, k requires 0 <= k < |lines| => IsMaster(lines[k]))
  }

  /** Each master steps at most one permit and no other line steps any,
      so there are no more permits than master lines. */
  lemma AtMostOnePermitPerMaster(lines: seq<string>)
    ensures |Parsed(lines)| <= CountTrue(MasterMarks(lines))
  {
    SomesBoundedByMarks(Yields(lines), MasterMarks(lines));
  }

  /** The permits appear in the order of the master lines they come from:
      `origin[k]` is the line of the `k`-th permit, these lines increase, and
      every line that steps a permit is among them. */
  lemma PermitsFollowLineOrder(lines: seq<string>) returns (origin: seq<nat>)
    ensures |origin| == |Parsed(lines)|
    ensures forall k :: 0 <= k < |origin| ==> origin[k] < |lines| && IsMaster(lines[origin[k]])
    ensures forall k :: 0 <= k < |origin| ==> PermitAt(lines, origin[k]) == Some(Parsed(lines)[k])
    ensures forall k, l :: 0 <= k < l < |origin| ==> origin[k] < origin[l]
    ensures forall m :: 0 <= m < |lines| && PermitAt(lines, m).Some? ==> m in origin
  {
    origin := SomesOrigins(Yields(lines));
  }

  /** Every permit in the output satisfies the emission rule: a non-empty
      operator, a date shown dashed, a county that is empty or comes from the
      town table, and the basin of that county. */
  lemma EveryPermitWellFormed(lines: seq<string>)
    ensures forall p :: p in Parsed(lines) ==>
      && p.operator != ""
      && |p.permitDate| == 10
      && (p.county == "" || p.county in CityToCounty.Values)
      && (p.city == "" ==> p.county == "")
      && p.basin == GetBasin(Some(p.county))
  {
    var origin := PermitsFollowLineOrder(lines);
    forall p | p in Parsed(lines)
      ensures p.operator != "" && |p.permitDate| == 10
      ensures p.county == "" || p.county in CityToCounty.Values
      ensures (p.city == "" ==> p.county == "") && p.basin == GetBasin(Some(p.county))
    {
      var k :| 0 <= k < |Parsed(lines)| && Parsed(lines)[k] == p;
      assert PermitAt(lines, origin[k]) == Some(p);
    }
  }

  /** The trailer search never looks past nine lines after the master: a
      trailer on the tenth line after it is not found. */
  lemma TrailerBeyondWindowIgnored(lines: seq<string>, i: nat)
    requires i + TrailerWindow + 1 < |lines|
    requires forall m :: i < m <= i + TrailerWindow ==> !IsTrailer(lines[m])
    ensures FindTrailer(lines, i, i + 1).None?
  {
  }

  /** A trailer on the ninth line after the master is still found when
      nothing before it stops the search. */
  lemma TrailerAtWindowEdgeFound(lines: seq<string>, i: nat)
    requires i + TrailerWindow < |lines|
    requires forall m :: i < m < i + TrailerWindow ==> !IsTrailer(lines[m]) && !StopsSearch(lines[m])
    requires IsTrailer(lines[i + TrailerWindow])
    ensures FindTrailer(lines, i, i + 1) == Some(i + TrailerWindow)
  {
  }

  /** An "01" line right after the master ends the search with nothing found. */
  lemma NextMasterEndsSearch(lines: seq<string>, i: nat)
    requires i + 1 < |lines| && StopsSearch(lines[i + 1])
    ensures FindTrailer(lines, i, i + 1).None?
  {
    StopperIsNoTrailer(lines[i + 1]);
  }

  /** A master whose trailer search finds nothing, or whose trailer names no
      town the pattern recognises, gets no town, no county and the basin
      "Other". */
  lemma NoTrailerMeansOther(lines: seq<string>, i: nat)
    requires i < |lines|
    requires FindTrailer(lines, i, i + 1).None?
      || ExtractCity(TrailerTail(lines[FindTrailer(lines, i, i + 1).value])).None?
    requires PermitAt(lines, i).Some?
    ensures PermitAt(lines, i).value.city == ""
    ensures PermitAt(lines, i).value.county == ""
    ensures PermitAt(lines, i).value.basin == "Other"
  {
  }

  /** "01" and "02" lines are told apart by their second character. */
  lemma StopperIsNoTrailer(line: string)
    requires StopsSearch(line)
    ensures !IsTrailer(line)
  {
    var r := RStrip(line);
    assert r[1] == '1';
  }
}

=== FILE: queue.dfy ===
/**
  The ERCOT interconnection-queue normaliser: finding the header row of the
  project sheet, picking the fuel, capacity, status and county columns by
  name, folding free-text fuel labels into the dashboard's seven
  categories, and the status breakdown. The spreadsheet reader is a
  parameter: for each number of rows to skip it either fails or yields the
  sheet's column names. Capacity sums are floating point and are not part
  of this model.
 */
module Queue {
  import opened Common
  import opened Text
  import opened Ranking

  // ---------------------------------------------------------------------
  // Fuel categories
  // ---------------------------------------------------------------------

  /** `fuel_map`, in the order its keys are written: the first key found in
      a label decides the category. */
  const FuelMap: seq<(string, string)> := [
    ("solar", "Solar"), ("photovoltaic", "Solar"), ("photovoltaic solar", "Solar"),
    ("wind", "Wind"), ("wind turbine", "Wind"),
    ("gas", "Gas"), ("natural gas", "Gas"), ("gas-cc", "Gas"), ("gas-ct", "Gas"),
    ("gas-ic", "Gas"), ("gas-st", "Gas"), ("gas - cc", "Gas"), ("gas - ct", "Gas"),
    ("battery", "Battery Storage"), ("battery storage", "Battery Storage"),
    ("storage", "Battery Storage"), ("energy storage", "Battery Storage"),
    ("nuclear", "Nuclear"), ("coal", "Coal"), ("biomass", "Other"),
    ("hydrogen", "Other"), ("other", "Other")
  ]

  /** The dashboard's fuel categories. */
  predicate IsCategory(c: string) {
    c == "Solar" || c == "Wind" || c == "Gas" || c == "Battery Storage" || c == "Nuclear" || c == "Coal" || c == "Other"
  }

  /** The label as the mapping sees it: `str(label).lower().strip()`. */
  function Normalised(raw: string): string {
    Strip(Lower(raw))
  }

  /** The fuel category of a label: the value of the first `fuel_map` key
      that occurs in the normalised label, or "Other" when none does. */
  function FuelCategory(raw: string): (cat: string)
    ensures IsCategory(cat)
    ensures var x := Normalised(raw);
      || (exists i :: (0 <= i < |FuelMap| && Contains(x, FuelMap[i].0) && cat == FuelMap[i].1
            && forall j :: 0 <= j < i ==> !Contains(x, FuelMap[j].0)))
      || (cat == "Other" && forall i :: 0 <= i < |FuelMap| ==> !Contains(x, FuelMap[i].0))
  {
    var x := Normalised(raw);
    assert forall i :: 0 <= i < |FuelMap| ==> IsCategory(FuelMap[i].1);
    match FirstIndex(FuelMap, (e: (string, string)) => Contains(x, e.0))
    case None => "Other"
    case Some(i) => FuelMap[i].1
  }

  /** The category of a label is decided by the first key, in written
      order, that occurs in it: finding key `i` and none before it fixes the
      category to key `i`'s value. */
  lemma FirstKeyDecides(raw: string, i: nat)
    requires i < |FuelMap|
    requires Contains(Normalised(raw), FuelMap[i].0)
    requires forall j :: 0 <= j < i ==> !Contains(Normalised(raw), FuelMap[j].0)
    ensures FuelCategory(raw) == FuelMap[i].1
  {
    var x := Normalised(raw);
    assert FirstIndex(FuelMap, (e: (string, string)) => Contains(x, e.0)) == Some(i);
  }

  /** Worked examples: a compound gas technology, a hybrid plant named
      solar first, and padding and case that the normalisation removes. */
  lemma CompoundGasExample()
    ensures FuelCategory("Gas-CC") == "Gas"
  {
    GasCcKeysBefore5();
    GasCcLower();
    LeadingKeyDecides("Gas-CC", "gas-cc", 5);
  }

  lemma GasCcKeysBefore5()
    ensures NoKeyBefore("gas-cc", 5)
  {
    SkipKey("gas-cc", 0, 1);
    SkipKey("gas-cc", 1, 0);
    SkipKey("gas-cc", 2, 0);
    SkipKey("gas-cc", 3, 0);
    SkipKey("gas-cc", 4, 0);
  }

  lemma GasCcLower()
    ensures Lower("Gas-CC") == "gas-cc"
    ensures OccursAt("gas-cc", FuelMap[5].0, 0)
    ensures FuelMap[5].1 == "Gas"
  {
  }

  lemma HybridExample()
    ensures FuelCategory("solar + storage") == "Solar"
  {
    LeadingKeyDecides("solar + storage", "solar + storage", 0);
  }

  lemma PaddedExample()
    ensures FuelCategory("  WIND ") == "Wind"
  {
    PaddedWind();
    PlainWind();
    WindMapsToItself();
  }

  lemma PaddedWind()
    ensures Normalised("  WIND ") == "wind"
  {
    assert Lower("  WIND ") == "  wind ";
    StripWind();
  }

  lemma PlainWind()
    ensures Normalised("Wind") == "wind"
  {
    assert Lower("Wind") == "wind";
    StripKeepsTrimmed("wind");
  }

  lemma StripWind()
    ensures Strip("  wind ") == "wind"
  {
    assert LeadingRun("  wind ", IsSpace) == 2;
    assert TrimStart("  wind ", IsSpace) == "wind ";
    assert TrimEnd("wind ", IsSpace) == "wind";
  }

  /** A string with no whitespace at either end is its own strip. */
  lemma StripKeepsTrimmed(s: string)
    requires |s| > 0 && !IsSpace(s[0]) && !IsSpace(s[|s| - 1])
    ensures Strip(s) == s
  {
    assert LeadingRun(s, IsSpace) == 0;
    assert TrimStart(s, IsSpace) == s;
  }

  /** A key longer than the text, or with a letter the text lacks, does not
      occur in it. */
  lemma KeyAbsent(x: string, key: string, m: nat)
    requires |key| > |x| || (m < |key| && key[m] !in x)
    ensures !Contains(x, key)
  {
  }

  /** A key whose first letter appears in the text only too close to its
      end does not occur in it. */
  lemma KeyStartsTooLate(x: string, key: string)
    requires |key| > 0
    requires forall k :: 0 <= k < |x| && x[k] == key[0] ==> k + |key| > |x|
    ensures !Contains(x, key)
  {
    forall k | 0 <= k <= |x| - |key|
      ensures !OccursAt(x, key, k)
    {
      assert x[k..k + |key|][0] == x[k];
    }
  }

  /** No key below `i` occurs in `x`. */
  predicate NoKeyBefore(x: string, i: nat)
    requires i <= |FuelMap|
  {
    forall j :: 0 <= j < i ==> !Contains(x, FuelMap[j].0)
  }

  /** Key `i` is absent too when it is longer than the text, lacks from the
      text its letter at `m`, or is already known absent. */
  lemma SkipKey(x: string, i: nat, m: nat)
    requires i < |FuelMap| && NoKeyBefore(x, i)
    requires |FuelMap[i].0| > |x| || (m < |FuelMap[i].0| && FuelMap[i].0[m] !in x) || !Contains(x, FuelMap[i].0)
    ensures NoKeyBefore(x, i + 1)
  {
    if Contains(x, FuelMap[i].0) {
      KeyAbsent(x, FuelMap[i].0, m);
    }
  }

  /** Mapping a category name again gives the same category, so the
      mapping is idempotent. */
  lemma FuelCategoryIdempotent(raw: string)
    ensures FuelCategory(FuelCategory(raw)) == FuelCategory(raw)
  {
    CategoryMapsToItself(FuelCategory(raw));
  }

  /** Each category name, read as a label, maps to itself. */
  lemma CategoryMapsToItself(c: string)
    requires IsCategory(c)
    ensures FuelCategory(c) == c
  {
    if c == "Solar" {
      SolarMapsToItself();
    } else if c == "Wind" {
      WindMapsToItself();
    } else if c == "Gas" {
      GasMapsToItself();
    } else if c == "Battery Storage" {
      BatteryStorageMapsToItself();
    } else if c == "Nuclear" {
      NuclearMapsToItself();
    } else if c == "Coal" {
      CoalMapsToItself();
    } else {
      OtherMapsToItself();
    }
  }

  /** A label whose lower-cased form `x` has no padding, starts with key
      `i`, and contains none of the earlier keys maps to key `i`'s category. */
  lemma LeadingKeyDecides(c: string, x: string, i: nat)
    requires i < |FuelMap| && Lower(c) == x
    requires |x| > 0 && !IsSpace(x[0]) && !IsSpace(x[|x| - 1])
    requires OccursAt(x, FuelMap[i].0, 0)
    requires NoKeyBefore(x, i)
    ensures FuelCategory(c) == FuelMap[i].1
  {
    StripKeepsTrimmed(x);
    FirstKeyDecides(c, i);
  }

  lemma SolarMapsToItself()
    ensures FuelCategory("Solar") == "Solar"
  {
    LeadingKeyDecides("Solar", "solar", 0);
  }

  lemma WindMapsToItself()
    ensures FuelCategory("Wind") == "Wind"
  {
    SkipKey("wind", 0, 0);
    SkipKey("wind", 1, 0);
    SkipKey("wind", 2, 0);
    LeadingKeyDecides("Wind", "wind", 3);
  }

  lemma GasMapsToItself()
    ensures FuelCategory("Gas") == "Gas"
  {
    SkipKey("gas", 0, 0);
    SkipKey("gas", 1, 0);
    SkipKey("gas", 2, 0);
    SkipKey("gas", 3, 0);
    SkipKey("gas", 4, 0);
    LeadingKeyDecides("Gas", "gas", 5);
  }

  /** "battery storage" holds the letters of "gas", but not in a row: its
      only 'g' is two letters from the end. */
  lemma BatteryStorageMapsToItself()
    ensures FuelCategory("Battery Storage") == "Battery Storage"
  {
    BatteryStorageKeysBefore12();
    SkipKey("battery storage", 12, 4);
    BatteryStorageLower();
    LeadingKeyDecides("Battery Storage", "battery storage", 13);
  }

  lemma BatteryStorageKeysBefore4()
    ensures NoKeyBefore("battery storage", 4)
  {
    SkipKey("battery storage", 0, 2);
    SkipKey("battery storage", 1, 0);
    SkipKey("battery storage", 2, 0);
    SkipKey("battery storage", 3, 0);
  }

  lemma BatteryStorageKeysBefore8()
    ensures NoKeyBefore("battery storage", 8)
  {
    BatteryStorageKeysBefore4();
    SkipKey("battery storage", 4, 0);
    KeyStartsTooLate("battery storage", "gas");
    SkipKey("battery storage", 5, 0);
    SkipKey("battery storage", 6, 0);
    SkipKey("battery storage", 7, 3);
  }

  lemma BatteryStorageKeysBefore12()
    ensures NoKeyBefore("battery storage", 12)
  {
    BatteryStorageKeysBefore8();
    SkipKey("battery storage", 8, 3);
    SkipKey("battery storage", 9, 3);
    SkipKey("battery storage", 10, 3);
    SkipKey("battery storage", 11, 4);
  }

  lemma BatteryStorageLower()
    ensures Lower("Battery Storage") == "battery storage"
    ensures OccursAt("battery storage", FuelMap[13].0, 0)
  {
  }

  lemma NuclearMapsToItself()
    ensures FuelCategory("Nuclear") == "Nuclear"
  {
    NuclearKeysBefore12();
    SkipKey("nuclear", 12, 0);
    SkipKey("nuclear", 13, 0);
    SkipKey("nuclear", 14, 0);
    SkipKey("nuclear", 15, 0);
    SkipKey("nuclear", 16, 0);
    LeadingKeyDecides("Nuclear", "nuclear", 17);
  }

  lemma NuclearKeysBefore6()
    ensures NoKeyBefore("nuclear", 6)
  {
    SkipKey("nuclear", 0, 0);
    SkipKey("nuclear", 1, 0);
    SkipKey("nuclear", 2, 0);
    SkipKey("nuclear", 3, 0);
    SkipKey("nuclear", 4, 0);
    SkipKey("nuclear", 5, 0);
  }

  lemma NuclearKeysBefore12()
    ensures NoKeyBefore("nuclear", 12)
  {
    NuclearKeysBefore6();
    SkipKey("nuclear", 6, 0);
    SkipKey("nuclear", 7, 0);
    SkipKey("nuclear", 8, 0);
    SkipKey("nuclear", 9, 0);
    SkipKey("nuclear", 10, 0);
    SkipKey("nuclear", 11, 0);
  }

  lemma CoalMapsToItself()
    ensures FuelCategory("Coal") == "Coal"
  {
    CoalKeysBefore12();
    SkipKey("coal", 12, 0);
    SkipKey("coal", 13, 0);
    SkipKey("coal", 14, 0);
    SkipKey("coal", 15, 0);
    SkipKey("coal", 16, 0);
    SkipKey("coal", 17, 0);
    LeadingKeyDecides("Coal", "coal", 18);
  }

  lemma CoalKeysBefore6()
    ensures NoKeyBefore("coal", 6)
  {
    SkipKey("coal", 0, 0);
    SkipKey("coal", 1, 0);
    SkipKey("coal", 2, 0);
    SkipKey("coal", 3, 0);
    SkipKey("coal", 4, 0);
    SkipKey("coal", 5, 0);
  }

  lemma CoalKeysBefore12()
    ensures NoKeyBefore("coal", 12)
  {
    CoalKeysBefore6();
    SkipKey("coal", 6, 0);
    SkipKey("coal", 7, 0);
    SkipKey("coal", 8, 0);
    SkipKey("coal", 9, 0);
    SkipKey("coal", 10, 0);
    SkipKey("coal", 11, 0);
  }

  lemma OtherMapsToItself()
    ensures FuelCategory("Other") == "Other"
  {
    OtherKeysBefore18();
    SkipKey("other", 18, 0);
    SkipKey("other", 19, 0);
    SkipKey("other", 20, 0);
    LeadingKeyDecides("Other", "other", 21);
  }

  lemma OtherKeysBefore6()
    ensures NoKeyBefore("other", 6)
  {
    SkipKey("other", 0, 0);
    SkipKey("other", 1, 0);
    SkipKey("other", 2, 0);
    SkipKey("other", 3, 0);
    SkipKey("other", 4, 0);
    SkipKey("other", 5, 0);
  }

  lemma OtherKeysBefore12()
    ensures NoKeyBefore("other", 12)
  {
    OtherKeysBefore6();
    SkipKey("other", 6, 0);
    SkipKey("other", 7, 0);
    SkipKey("other", 8, 0);
    SkipKey("other", 9, 0);
    SkipKey("other", 10, 0);
    SkipKey("other", 11, 0);
  }

  lemma OtherKeysBefore18()
    ensures NoKeyBefore("other", 18)
  {
    OtherKeysBefore12();
    SkipKey("other", 12, 0);
    SkipKey("other", 13, 0);
    SkipKey("other", 14, 0);
    SkipKey("other", 15, 0);
    SkipKey("other", 16, 0);
    SkipKey("other", 17, 0);
  }

  // ---------------------------------------------------------------------
  // Column detection
  // ---------------------------------------------------------------------

  const FuelNames: seq<string> := ["fuel", "fuel type", "technology", "generation type"]
  const StatusNames: seq<string> := ["status", "gim study phase"]

  predicate IsFuelColumn(col: string) {
    Lower(col) in FuelNames
  }

  /** The capacity test as written: both words present, or the whole name
      equal to "capacity (mw)". */
  predicate IsCapacityColumn(col: string) {
    || (Contains(Lower(col), "capacity") && Contains(Lower(col), "mw"))
    || Lower(col) == "capacity (mw)"
  }

  predicate MentionsCapacityAndMw(col: string) {
    Contains(Lower(col), "capacity") && Contains(Lower(col), "mw")
  }

  predicate IsStatusColumn(col: string) {
    Lower(col) in StatusNames
  }

  predicate IsCountyColumn(col: string) {
    Lower(col) == "county"
  }

  /** The equality test against "capacity (mw)" never picks a column the
      two-word test would not. */
  lemma CapacityTestSubsumed(col: string)
    ensures IsCapacityColumn(col) <==> MentionsCapacityAndMw(col)
  {
    var l := Lower(col);
    if l == "capacity (mw)" {
      assert OccursAt(l, "capacity", 0);
      assert OccursAt(l, "mw", 10);
    }
  }

  /** So the capacity column is the first column naming both words. */
  lemma CapacityColumnNamesBoth(cols: seq<string>)
    ensures FirstWhere(cols, IsCapacityColumn) == FirstWhere(cols, MentionsCapacityAndMw)
  {
    forall i | 0 <= i < |cols|
      ensures IsCapacityColumn(cols[i]) == MentionsCapacityAndMw(cols[i])
    {
      CapacityTestSubsumed(cols[i]);
    }
    FirstWhereAgree(cols, IsCapacityColumn, MentionsCapacityAndMw);
  }

  /** `for col in df.columns: if p(col): found = col; break`. */
  method FindColumn(cols: seq<string>, p: string -> bool) returns (found: Option<string>)
    ensures found == FirstWhere(cols, p)
  {
    found := None;
    var k := 0;
    while k < |cols|
      invariant k <= |cols|
      invariant forall j :: 0 <= j < k ==> !p(cols[j])
    {
      if p(cols[k]) {
        found := Some(cols[k]);
        FirstWhereAt(cols, p, k);
        return;
      }
      k := k + 1;
    }
  }

  /** The four column searches of `process_queue_data`. */
  method DetectColumns(cols: seq<string>) returns (fuel: Option<string>, capacity: Option<string>,
                                                    status: Option<string>, county: Option<string>)
    ensures fuel == FirstWhere(cols, IsFuelColumn)
    ensures capacity == FirstWhere(cols, MentionsCapacityAndMw)
    ensures status == FirstWhere(cols, IsStatusColumn)
    ensures county == FirstWhere(cols, IsCountyColumn)
  {
    fuel := FindColumn(cols, IsFuelColumn);
    capacity := FindColumn(cols, IsCapacityColumn);
    CapacityColumnNamesBoth(cols);
    status := FindColumn(cols, IsStatusColumn);
    county := FindColumn(cols, IsCountyColumn);
  }

  // ---------------------------------------------------------------------
  // Header-row probe
  // ---------------------------------------------------------------------

  /** How many header rows to try: `range(6)`. */
  const HeaderTries: nat := 6

  /** The column names a parse yields, or None when the reader fails. */
  type Reader = nat -> Option<seq<string>>

  predicate IsNamed(col: string) {
    !Contains(col, "Unnamed")
  }

  /** The number of column names the reader did not have to invent. */
  function NamedCount(cols: seq<string>): nat {
    |Filter(IsNamed, cols)|
  }

  /** A parse is accepted when it succeeds with more than five named
      columns. */
  predicate Accepts(parse: Option<seq<string>>) {
    parse.Some? && NamedCount(parse.value) > 5
  }

  /** The probe from `skip` on: the first accepted parse, with the number of
      rows it skipped. */
  function ProbeFrom(read: Reader, skip: nat): Option<(nat, seq<string>)>
    requires skip <= HeaderTries
    decreases HeaderTries - skip
  {
    if skip == HeaderTries then None
    else if Accepts(read(skip)) then Some((skip, read(skip).value))
    else ProbeFrom(read, skip + 1)
  }

  function ProbeHeader(read: Reader): Option<(nat, seq<string>)> {
    ProbeFrom(read, 0)
  }

  /** A probe that finds a header returns the first accepted parse: its
      skip is in range, the parse at that skip is accepted, and every
      smaller skip was rejected. */
  lemma {:induction false} ProbeFinds(read: Reader, skip: nat)
    requires skip <= HeaderTries && ProbeFrom(read, skip).Some?
    ensures var r := ProbeFrom(read, skip).value;
      && skip <= r.0 < HeaderTries && read(r.0) == Some(r.1) && Accepts(read(r.0))
      && forall s :: skip <= s < r.0 ==> !Accepts(read(s))
    decreases HeaderTries - skip
  {
    ProbeStep(read, skip);
    if !Accepts(read(skip)) {
      ProbeFinds(read, skip + 1);
    }
  }

  /** The probe gives up exactly when no skip from `skip` on is accepted. */
  lemma {:induction false} ProbeGivesUp(read: Reader, skip: nat)
    requires skip <= HeaderTries
    ensures ProbeFrom(read, skip).None? <==> forall s :: skip <= s < HeaderTries ==> !Accepts(read(s))
    decreases HeaderTries - skip
  {
    if skip < HeaderTries && !Accepts(read(skip)) {
      ProbeGivesUp(read, skip + 1);
    }
  }

  /** One round of the probe: accept this skip or move to the next. */
  lemma ProbeStep(read: Reader, skip: nat)
    requires skip < HeaderTries
    ensures Accepts(read(skip)) ==> ProbeFrom(read, skip) == Some((skip, read(skip).value))
    ensures !Accepts(read(skip)) ==> ProbeFrom(read, skip) == ProbeFrom(read, skip + 1)
  {
  }

  /** The probe loop as written: a failed parse or one with too few named
      columns moves on to the next skip. */
  method ReadProjectDetails(read: Reader) returns (r: Option<(nat, seq<string>)>)
    ensures r == ProbeHeader(read)
  {
    var skip := 0;
    while skip < HeaderTries
      invariant skip <= HeaderTries
      invariant ProbeHeader(read) == ProbeFrom(read, skip)
    {
      var parse := read(skip);
      ProbeStep(read, skip);
      if parse.None? {
        skip := skip + 1;
        continue;
      }
      var named := Filter(IsNamed, parse.value);
      if |named| > 5 {
        return Some((skip, parse.value));
      }
      skip := skip + 1;
    }
    r := None;
  }

  // ---------------------------------------------------------------------
  // Status breakdown
  // ---------------------------------------------------------------------

  /** The spellings of a missing value that the breakdown drops. */
  const MissingNames: seq<string> := ["nan", "none", ""]

  predicate IsShownStatus(k: string) {
    Lower(k) !in MissingNames
  }

  /** `by_status`: the status values counted, missing cells (None) not
      counted at all, and statuses that read "nan", "none" or "" in any case
      dropped; highest count first. There is one entry per distinct shown
      status of the column, and each entry's count is exact. */
  function StatusBreakdown(values: seq<Option<string>>): (r: seq<(string, nat)>)
    ensures DistinctKeys(r)
    ensures |r| == |Counted(Somes(values), IsShownStatus)|
    ensures forall i :: 0 <= i < |r| ==> r[i].0 in Somes(values)
    ensures forall i, j :: 0 <= i < j < |r| ==> r[i].1 >= r[j].1
    ensures forall i :: 0 <= i < |r| ==> IsShownStatus(r[i].0) && r[i].1 == multiset(Somes(values))[r[i].0]
    ensures forall i :: (0 <= i < |values| && values[i].Some? && IsShownStatus(values[i].value)
      ==> values[i].value in Keys(r))
  {
    var present := Somes(values);
    SomesNoLonger(values);
    var r := TopCounts(present, IsShownStatus, |values|);
    CountedNoLarger(present, IsShownStatus);
    forall i | 0 <= i < |values| && values[i].Some? && IsShownStatus(values[i].value)
      ensures values[i].value in Keys(r)
    {
      SomeIsPresent(values, i);
      TopCountsComplete(present, IsShownStatus, |values|, values[i].value);
    }
    r
  }
}

=== FILE: ranking.dfy ===
/**
  Counting and ranking as the summaries do it: a Python dict used as a
  counter (keys kept in first-insertion order), and Python's stable
  `sorted(..., reverse=True)` followed by a `[:n]` cut.
 */
module Ranking {
  import opened Common

  /** `geq(a, b)` reads "a ranks at least as high as b". */
  ghost predicate TotalPreorder<T(!new)>(geq: (T, T) -> bool) {
    && (forall a, b :: geq(a, b) || geq(b, a))
    && (forall a, b, c :: geq(a, b) && geq(b, c) ==> geq(a, c))
  }

  ghost predicate SortedDesc<T>(geq: (T, T) -> bool, s: seq<T>) {
    forall i, j :: 0 <= i < j < |s| ==> geq(s[i], s[j])
  }

  predicate SameRank<T>(geq: (T, T) -> bool, a: T, b: T) {
    geq(a, b) && geq(b, a)
  }

  /** The elements of `s` ranked level with `x`, in their order in `s`. */
  function Peers<T>(geq: (T, T) -> bool, s: seq<T>, x: T): seq<T>
    decreases |s|
  {
    if |s| == 0 then []
    else (if SameRank(geq, s[0], x) then [s[0]] else []) + Peers(geq, s[1..], x)
  }

  /** `x` placed in front of the first element ranked strictly below it, so
      after every element ranked level with it. */
  function Insert<T>(geq: (T, T) -> bool, s: seq<T>, x: T): seq<T>
    decreases |s|
  {
    if |s| == 0 then [x]
    else if !geq(s[0], x) then [x] + s
    else [s[0]] + Insert(geq, s[1..], x)
  }

  /** Python's stable descending sort: highest rank first, ties in input order. */
  function SortDesc<T(!new)>(geq: (T, T) -> bool, s: seq<T>): (r: seq<T>)
    requires TotalPreorder(geq)
    ensures multiset(r) == multiset(s)
    ensures SortedDesc(geq, r)
    decreases |s|
  {
    if |s| == 0 then []
    else
      var init := s[..|s| - 1];
      var r := Insert(geq, SortDesc(geq, init), s[|s| - 1]);
      InsertMultiset(geq, SortDesc(geq, init), s[|s| - 1]);
      InsertSorted(geq, SortDesc(geq, init), s[|s| - 1]);
      assert s == init + [s[|s| - 1]];
      r
  }

  lemma {:induction false} InsertMultiset<T>(geq: (T, T) -> bool, s: seq<T>, x: T)
    ensures multiset(Insert(geq, s, x)) == multiset(s) + multiset{x}
    decreases |s|
  {
    if |s| > 0 && geq(s[0], x) {
      InsertMultiset(geq, s[1..], x);
      assert s == [s[0]] + s[1..];
    }
  }

  lemma {:induction false} InsertSorted<T(!new)>(geq: (T, T) -> bool, s: seq<T>, x: T)
    requires TotalPreorder(geq)
    requires SortedDesc(geq, s)
    ensures SortedDesc(geq, Insert(geq, s, x))
    decreases |s|
  {
    if |s| == 0 {
    } else if !geq(s[0], x) {
      assert geq(x, s[0]);
    } else {
      var t := Insert(geq, s[1..], x);
      InsertSorted(geq, s[1..], x);
      InsertMultiset(geq, s[1..], x);
      forall j | 0 <= j < |t|
        ensures geq(s[0], t[j])
      {
        assert t[j] in multiset(t);
        assert t[j] in multiset(s[1..]) || t[j] == x;
        if t[j] != x {
          var k :| 0 <= k < |s[1..]| && s[1..][k] == t[j];
          assert s[k + 1] == t[j];
        }
      }
    }
  }

  /** Every element of `s` ranks strictly below `y`, so none is level with a
      peer of `y`. */
  lemma {:induction false} NoPeersBelow<T(!new)>(geq: (T, T) -> bool, s: seq<T>, y: T, x: T)
    requires TotalPreorder(geq)
    requires forall j :: 0 <= j < |s| ==> !geq(s[j], y)
    requires SameRank(geq, y, x)
    ensures Peers(geq, s, x) == []
    decreases |s|
  {
    if |s| > 0 {
      NoPeersBelow(geq, s[1..], y, x);
    }
  }

  lemma {:induction false} InsertPeers<T(!new)>(geq: (T, T) -> bool, s: seq<T>, y: T, x: T)
    requires TotalPreorder(geq)
    requires SortedDesc(geq, s)
    ensures Peers(geq, Insert(geq, s, y), x)
      == Peers(geq, s, x) + (if SameRank(geq, y, x) then [y] else [])
    decreases |s|
  {
    var own := if SameRank(geq, y, x) then [y] else [];
    if |s| == 0 {
      assert Peers(geq, [y], x) == own + Peers(geq, [], x);
    } else if !geq(s[0], y) {
      var ins := [y] + s;
      assert ins[1..] == s;
      assert Peers(geq, ins, x) == own + Peers(geq, s, x);
      if SameRank(geq, y, x) {
        StrictlyBelowSorted(geq, s, y);
        NoPeersBelow(geq, s, y, x);
      }
    } else {
      var rest := Insert(geq, s[1..], y);
      var mine := if SameRank(geq, s[0], x) then [s[0]] else [];
      assert ([s[0]] + rest)[1..] == rest;
      assert Peers(geq, [s[0]] + rest, x) == mine + Peers(geq, rest, x);
      InsertPeers(geq, s[1..], y, x);
      assert Peers(geq, s, x) == mine + Peers(geq, s[1..], x);
    }
  }

  /** Below the head of a descending sequence means below all of it. */
  lemma StrictlyBelowSorted<T(!new)>(geq: (T, T) -> bool, s: seq<T>, y: T)
    requires TotalPreorder(geq)
    requires SortedDesc(geq, s)
    requires |s| > 0 && !geq(s[0], y)
    ensures forall j :: 0 <= j < |s| ==> !geq(s[j], y)
  {
    forall j | 0 < j < |s| ensures !geq(s[j], y) {
      assert geq(s[0], s[j]);
    }
  }

  lemma {:induction false} PeersAppend<T>(geq: (T, T) -> bool, s: seq<T>, y: T, x: T)
    ensures Peers(geq, s + [y], x) == Peers(geq, s, x) + (if SameRank(geq, y, x) then [y] else [])
    decreases |s|
  {
    if |s| > 0 {
      assert (s + [y])[1..] == s[1..] + [y];
      PeersAppend(geq, s[1..], y, x);
    }
  }

  /** Stability: for every rank, the elements of that rank leave the sort in
      the order they entered it. */
  lemma {:induction false} SortDescStable<T(!new)>(geq: (T, T) -> bool, s: seq<T>, x: T)
    requires TotalPreorder(geq)
    ensures Peers(geq, SortDesc(geq, s), x) == Peers(geq, s, x)
    decreases |s|
  {
    if |s| > 0 {
      var init := s[..|s| - 1];
      var y := s[|s| - 1];
      SortDescLast(geq, s);
      SortDescStable(geq, init, x);
      StableStep(geq, init, SortDesc(geq, init), y, x);
      assert init + [y] == s;
    }
  }

  /** One insertion step keeps the peers of `x` in input order. */
  lemma StableStep<T(!new)>(geq: (T, T) -> bool, init: seq<T>, sorted: seq<T>, y: T, x: T)
    requires TotalPreorder(geq) && SortedDesc(geq, sorted)
    requires Peers(geq, sorted, x) == Peers(geq, init, x)
    ensures Peers(geq, Insert(geq, sorted, y), x) == Peers(geq, init + [y], x)
  {
    InsertPeers(geq, sorted, y, x);
    PeersAppend(geq, init, y, x);
  }

  /** Sorting a non-empty sequence inserts its last element into the sorted
      rest. */
  lemma SortDescLast<T(!new)>(geq: (T, T) -> bool, s: seq<T>)
    requires TotalPreorder(geq) && |s| > 0
    ensures SortDesc(geq, s) == Insert(geq, SortDesc(geq, s[..|s| - 1]), s[|s| - 1])
  {
  }

  /** Ranking of counter entries by their count. */
  function ByCount<K>(a: (K, nat), b: (K, nat)): bool {
    a.1 >= b.1
  }

  lemma ByCountIsTotalPreorder<K(!new)>()
    ensures TotalPreorder(ByCount<K>)
  {
  }

  /** `dict(sorted(t, key=count, reverse=True)[:n])`: the `n` highest counts,
      highest first. */
  function TopN<K(!new)>(t: seq<(K, nat)>, n: nat): (r: seq<(K, nat)>)
    ensures |r| == Min(n, |t|)
    ensures forall i, j :: 0 <= i < j < |r| ==> r[i].1 >= r[j].1
    ensures multiset(r) <= multiset(t)
    ensures forall x, y :: x in r && y in multiset(t) - multiset(r) ==> x.1 >= y.1
    ensures forall x :: Peers(ByCount, r, x) <= Peers(ByCount, t, x)
  {
    ByCountIsTotalPreorder<K>();
    var sorted := SortDesc(ByCount, t);
    var m := Min(n, |t|);
    SortedPrefixDominates(ByCount, sorted, m);
    CutKeepsEarliestPeers(t, sorted, m);
    sorted[..m]
  }

  /** Entries of equal count leave the sort in input order, so a cut keeps
      the earliest of them. */
  lemma CutKeepsEarliestPeers<K(!new)>(t: seq<(K, nat)>, sorted: seq<(K, nat)>, m: nat)
    requires TotalPreorder(ByCount<K>) && sorted == SortDesc(ByCount, t) && m <= |sorted|
    ensures forall x :: Peers(ByCount, sorted[..m], x) <= Peers(ByCount, t, x)
  {
    forall x ensures Peers(ByCount, sorted[..m], x) <= Peers(ByCount, t, x) {
      PeersOfPrefix(ByCount, sorted, m, x);
      SortDescStable(ByCount, t, x);
    }
  }

  /** The peers in a prefix are a prefix of the peers. */
  lemma {:induction false} PeersOfPrefix<T>(geq: (T, T) -> bool, s: seq<T>, m: nat, x: T)
    requires m <= |s|
    ensures Peers(geq, s[..m], x) <= Peers(geq, s, x)
    decreases m
  {
    if m > 0 {
      assert s[..m][1..] == s[1..][..m - 1];
      PeersOfPrefix(geq, s[1..], m - 1, x);
      var h := if SameRank(geq, s[0], x) then [s[0]] else [];
      assert Peers(geq, s[..m], x) == h + Peers(geq, s[1..][..m - 1], x);
      assert Peers(geq, s, x) == h + Peers(geq, s[1..], x);
    }
  }

  /** Cutting a descending sequence: everything kept ranks at least as high as
      everything cut away. */
  lemma SortedPrefixDominates<T>(geq: (T, T) -> bool, s: seq<T>, m: nat)
    requires SortedDesc(geq, s) && m <= |s|
    ensures multiset(s[..m]) <= multiset(s)
    ensures multiset(s) - multiset(s[..m]) == multiset(s[m..])
    ensures forall x, y :: x in s[..m] && y in multiset(s) - multiset(s[..m]) ==> geq(x, y)
  {
    assert s == s[..m] + s[m..];
    assert multiset(s) == multiset(s[..m]) + multiset(s[m..]);
    forall x, y | x in s[..m] && y in multiset(s[m..])
      ensures geq(x, y)
    {
      var i :| 0 <= i < m && s[i] == x;
      var j :| m <= j < |s| && s[j] == y;
    }
  }

  function Keys<K, V>(t: seq<(K, V)>): (ks: seq<K>)
    ensures |ks| == |t|
    ensures forall i :: 0 <= i < |t| ==> ks[i] == t[i].0
  {
    seq(|t|, i requires 0 <= i < |t| => t[i].0)
  }

  predicate DistinctKeys<K(==), V>(t: seq<(K, V)>) {
    forall i, j :: 0 <= i < j < |t| ==> t[i].0 != t[j].0
  }

  function SumCounts<K>(t: seq<(K, nat)>): nat
    decreases |t|
  {
    if |t| == 0 then 0 else t[0].1 + SumCounts(t[1..])
  }

  /** Python `d[k] = d.get(k, 0) + 1`: an existing key keeps its place and
      gains one, a new key is appended with count 1. */
  function Bump<K(==)>(t: seq<(K, nat)>, k: K): (r: seq<(K, nat)>)
    requires DistinctKeys(t)
    ensures |r| == |t| + (if k in Keys(t) then 0 else 1)
    ensures forall i :: 0 <= i < |t| ==> r[i] == (t[i].0, t[i].1 + (if t[i].0 == k then 1 else 0))
    ensures k !in Keys(t) ==> r[|t|] == (k, 1)
    ensures SumCounts(r) == SumCounts(t) + 1
  {
    match FirstIndex(t, (e: (K, nat)) => e.0 == k)
    case Some(i) =>
      assert Keys(t)[i] == k;
      SumCountsUpdate(t, i, (k, t[i].1 + 1));
      t[i := (k, t[i].1 + 1)]
    case None =>
      assert forall j :: 0 <= j < |t| ==> Keys(t)[j] != k;
      SumCountsAppend(t, (k, 1));
      t + [(k, 1)]
  }

  lemma {:induction false} SumCountsAppend<K>(t: seq<(K, nat)>, e: (K, nat))
    ensures SumCounts(t + [e]) == SumCounts(t) + e.1
    decreases |t|
  {
    if |t| > 0 {
      assert (t + [e])[1..] == t[1..] + [e];
      SumCountsAppend(t[1..], e);
    }
  }

  lemma {:induction false} SumCountsUpdate<K>(t: seq<(K, nat)>, i: nat, e: (K, nat))
    requires i < |t|
    ensures SumCounts(t[i := e]) == SumCounts(t) - t[i].1 + e.1
    decreases |t|
  {
    if i > 0 {
      assert t[i := e][1..] == t[1..][i - 1 := e];
      SumCountsUpdate(t[1..], i - 1, e);
    } else {
      assert t[i := e][1..] == t[1..];
    }
  }

  /** `r` is the counter a dict would hold after counting `keys`: one entry
      per distinct key, every key present, each with its number of occurrences. */
  ghost predicate IsTallyOf<K>(r: seq<(K, nat)>, keys: seq<K>) {
    && DistinctKeys(r)
    && (forall i :: 0 <= i < |r| ==> r[i].0 in keys)
    && (forall i :: 0 <= i < |keys| ==> keys[i] in Keys(r))
    && (forall i :: 0 <= i < |r| ==> r[i].1 == multiset(keys)[r[i].0])
    && SumCounts(r) == |keys|
  }

  /** The entries of `r` come in the order their keys first occur in
      `keys`: wherever a later entry's key occurs, an earlier entry's key
      has already occurred. */
  ghost predicate InFirstAppearanceOrder<K>(r: seq<(K, nat)>, keys: seq<K>) {
    forall i, j, b :: 0 <= i < j < |r| && 0 <= b < |keys| && keys[b] == r[j].0 ==> r[i].0 in keys[..b]
  }

  /** A dict used as a counter over `keys`, keys in order of first appearance. */
  function Tally<K(==)>(keys: seq<K>): (r: seq<(K, nat)>)
    ensures IsTallyOf(r, keys)
    ensures InFirstAppearanceOrder(r, keys)
    decreases |keys|
  {
    if |keys| == 0 then []
    else
      var t := Tally(keys[..|keys| - 1]);
      BumpExtendsTally(t, keys);
      BumpKeepsOrder(t, keys);
      Bump(t, keys[|keys| - 1])
  }

  /** Counting one more key keeps the entries in first-appearance order: an
      old key keeps its place and a new one goes last. */
  lemma BumpKeepsOrder<K>(t: seq<(K, nat)>, keys: seq<K>)
    requires |keys| > 0 && IsTallyOf(t, keys[..|keys| - 1])
    requires InFirstAppearanceOrder(t, keys[..|keys| - 1])
    ensures InFirstAppearanceOrder(Bump(t, keys[|keys| - 1]), keys)
  {
    var init, k := keys[..|keys| - 1], keys[|keys| - 1];
    var r := Bump(t, k);
    forall i, j, b | 0 <= i < j < |r| && 0 <= b < |keys| && keys[b] == r[j].0
      ensures r[i].0 in keys[..b]
    {
      assert r[i].0 == t[i].0;
      if b < |init| {
        assert init[b] == keys[b] && init[b] in Keys(t);
        assert keys[..b] == init[..b];
        assert j < |t|;
        assert r[j].0 == t[j].0;
      } else {
        assert keys[..b] == init;
      }
    }
  }

  lemma BumpExtendsTally<K>(t: seq<(K, nat)>, keys: seq<K>)
    requires |keys| > 0 && IsTallyOf(t, keys[..|keys| - 1])
    ensures IsTallyOf(Bump(t, keys[|keys| - 1]), keys)
  {
    var init, k := keys[..|keys| - 1], keys[|keys| - 1];
    var r := Bump(t, k);
    assert keys == init + [k];
    assert multiset(keys) == multiset(init) + multiset{k};
    forall i | 0 <= i < |r| ensures r[i].0 in keys && r[i].1 == multiset(keys)[r[i].0] {
      if i < |t| {
        assert r[i].0 == t[i].0;
      } else {
        assert r[i].0 == k && k !in Keys(t);
        assert k !in init;
      }
    }
    forall i | 0 <= i < |keys| ensures keys[i] in Keys(r) {
      if i < |init| {
        assert keys[i] == init[i];
        var j :| 0 <= j < |t| && Keys(t)[j] == init[i];
        assert Keys(r)[j] == keys[i];
      } else if k in Keys(t) {
        var j :| 0 <= j < |t| && Keys(t)[j] == k;
        assert Keys(r)[j] == k;
      } else {
        assert Keys(r)[|t|] == k;
      }
    }
    assert DistinctKeys(r) by {
      forall i, j | 0 <= i < j < |r| ensures r[i].0 != r[j].0 {
        if j == |t| {
          assert Keys(t)[i] == r[i].0;
        }
      }
    }
  }

  /** `[f(x) for x in s]`. */
  function Map<A, B>(f: A -> B, s: seq<A>): (r: seq<B>)
    ensures |r| == |s|
    ensures forall i :: 0 <= i < |s| ==> r[i] == f(s[i])
  {
    seq(|s|, i requires 0 <= i < |s| => f(s[i]))
  }

  lemma MapAppend<A, B>(f: A -> B, s: seq<A>, t: seq<A>)
    ensures Map(f, s + t) == Map(f, s) + Map(f, t)
  {
    assert forall i :: 0 <= i < |t| ==> (s + t)[|s| + i] == t[i];
  }

  /** Reordering the input reorders the images: how often each image occurs
      depends only on the input's multiset. */
  lemma {:induction false} MapPermutation<A, B>(f: A -> B, s: seq<A>, t: seq<A>)
    requires multiset(s) == multiset(t)
    ensures multiset(Map(f, s)) == multiset(Map(f, t))
    decreases |s|
  {
    if |s| == 0 {
      assert |t| == |multiset(t)| == 0;
    } else {
      var n := |s| - 1;
      var x := s[n];
      assert s == s[..n] + [x];
      assert x in multiset(t);
      var i :| 0 <= i < |t| && t[i] == x;
      var a, b := t[..i], t[i + 1..];
      assert t == a + [x] + b;
      RemoveMatching(s[..n], a, b, x);
      MapPermutation(f, s[..n], a + b);
      MapAppend(f, s[..n], [x]);
      MapAppend(f, a, [x]);
      MapAppend(f, a + [x], b);
      MapAppend(f, a, b);
    }
  }

  lemma RemoveMatching<A>(s: seq<A>, a: seq<A>, b: seq<A>, x: A)
    requires multiset(s + [x]) == multiset(a + [x] + b)
    ensures multiset(s) == multiset(a + b)
  {
    forall y ensures multiset(a + b)[y] == multiset(s)[y] {
      assert multiset(a + [x] + b)[y] == multiset(a)[y] + multiset{x}[y] + multiset(b)[y];
      assert multiset(s + [x])[y] == multiset(s)[y] + multiset{x}[y];
    }
  }

  /** `[x for x in s if p(x)]`: what it keeps satisfies `p`, and every value
      satisfying `p` is kept as often as it occurs. */
  function Filter<T(!new)>(p: T -> bool, s: seq<T>): (r: seq<T>)
    ensures |r| <= |s|
    ensures forall i :: 0 <= i < |r| ==> p(r[i])
    ensures forall x :: multiset(r)[x] == if p(x) then multiset(s)[x] else 0
    decreases |s|
  {
    if |s| == 0 then []
    else
      var n := |s| - 1;
      var r := Filter(p, s[..n]);
      assert s == s[..n] + [s[n]];
      if p(s[n]) then r + [s[n]] else r
  }

  /** A counter cut down to its `n` largest entries: each entry counts its
      key exactly, and a key left out occurs no more often than any kept. */
  lemma TopOfTally<K(!new)>(keys: seq<K>, n: nat)
    ensures var r := TopN(Tally(keys), n);
      && |r| <= n
      && (forall i :: 0 <= i < |r| ==> r[i].0 in keys && r[i].1 == multiset(keys)[r[i].0])
      && (forall i, k :: 0 <= i < |r| && k in keys && k !in Keys(r) ==> r[i].1 >= multiset(keys)[k])
  {
    var t := Tally(keys);
    var r := TopN(t, n);
    forall i | 0 <= i < |r|
      ensures r[i].0 in keys && r[i].1 == multiset(keys)[r[i].0]
    {
      TallyEntry(t, keys, r[i]);
    }
    forall i, k | 0 <= i < |r| && k in keys && k !in Keys(r)
      ensures r[i].1 >= multiset(keys)[k]
    {
      var e := TallyEntryOf(t, keys, k);
      assert e !in r;
      assert e in multiset(t) - multiset(r);
      assert r[i] in r;
    }
  }

  /** `dict(sorted(counts.items(), key=count, reverse=True)[:n])` for the
      counter of the keys satisfying `p`: at most `n` entries, highest count
      first, each with its key's exact number of occurrences, and a key
      left out occurring no more often than any kept. */
  function TopCounts<K(==,!new)>(keys: seq<K>, p: K -> bool, n: nat): (r: seq<(K, nat)>)
    ensures |r| == Min(n, |Counted(keys, p)|)
    ensures DistinctKeys(r)
    ensures forall i :: 0 <= i < |r| ==> r[i].0 in keys
    ensures forall i, j :: 0 <= i < j < |r| ==> r[i].1 >= r[j].1
    ensures forall i :: 0 <= i < |r| ==> p(r[i].0) && r[i].1 == multiset(keys)[r[i].0]
    ensures forall i, k :: 0 <= i < |r| && k in keys && p(k) && k !in Keys(r) ==> r[i].1 >= multiset(keys)[k]
    ensures forall i, k :: (0 <= i < |r| && k in keys && p(k) && k !in Keys(r) && multiset(keys)[k] == r[i].1
      ==> OccursFirst(keys, r[i].0, k))
  {
    var r := TopN(Tally(Filter(p, keys)), n);
    TopCountsShape(keys, p, n, r);
    TopCountsTies(keys, p, n, r);
    TopCountsExact(keys, p, n, r);
    TopCountsLeftOut(keys, p, n, r);
    r
  }

  /** `a` occurs in `keys` before `k` first does: every occurrence of `k`
      has an occurrence of `a` before it. */
  ghost predicate OccursFirst<K>(keys: seq<K>, a: K, k: K) {
    forall b :: 0 <= b < |keys| && keys[b] == k ==> a in keys[..b]
  }

  /** Ties at the cut go to the key that occurred first: the counter keeps
      keys in first-appearance order and the stable sort keeps that order
      among equal counts. */
  lemma TopCountsTies<K(!new)>(keys: seq<K>, p: K -> bool, n: nat, r: seq<(K, nat)>)
    requires r == TopN(Tally(Filter(p, keys)), n)
    ensures forall i, k :: (0 <= i < |r| && k in keys && p(k) && k !in Keys(r) && multiset(keys)[k] == r[i].1
      ==> OccursFirst(keys, r[i].0, k))
  {
    forall i, k | 0 <= i < |r| && k in keys && p(k) && k !in Keys(r) && multiset(keys)[k] == r[i].1
      ensures OccursFirst(keys, r[i].0, k)
    {
      TieKeptFirst(keys, p, n, r, i, k);
    }
  }

  lemma TieKeptFirst<K(!new)>(keys: seq<K>, p: K -> bool, n: nat, r: seq<(K, nat)>, i: nat, k: K)
    requires r == TopN(Tally(Filter(p, keys)), n)
    requires i < |r| && k in keys && p(k) && k !in Keys(r) && multiset(keys)[k] == r[i].1
    ensures OccursFirst(keys, r[i].0, k)
  {
    var kept := Filter(p, keys);
    FilterKeepsCount(keys, p, k);
    TieKeptFirstInCut(kept, n, r, i, k);
    FilterOccursFirst(keys, p, r[i].0, k);
  }

  lemma FilterKeepsCount<K(!new)>(keys: seq<K>, p: K -> bool, k: K)
    requires k in keys && p(k)
    ensures multiset(Filter(p, keys))[k] == multiset(keys)[k] > 0
  {
    assert k in multiset(keys);
  }

  lemma TieKeptFirstInCut<K(!new)>(kept: seq<K>, n: nat, r: seq<(K, nat)>, i: nat, k: K)
    requires r == TopN(Tally(kept), n)
    requires i < |r| && k in multiset(kept) && k !in Keys(r) && multiset(kept)[k] == r[i].1
    ensures OccursFirst(kept, r[i].0, k)
  {
    var t := Tally(kept);
    TopNStableAt(t, n, (k, multiset(kept)[k]));
    TieKeptFirstAmongKept(kept, t, r, i, k);
  }

  /** The same, stated over the counted keys and their counter. */
  lemma TieKeptFirstAmongKept<K>(kept: seq<K>, t: seq<(K, nat)>, r: seq<(K, nat)>, i: nat, k: K)
    requires IsTallyOf(t, kept) && InFirstAppearanceOrder(t, kept)
    requires multiset(r) <= multiset(t)
    requires Peers(ByCount, r, (k, multiset(kept)[k])) <= Peers(ByCount, t, (k, multiset(kept)[k]))
    requires i < |r| && k in multiset(kept) && k !in Keys(r) && multiset(kept)[k] == r[i].1
    ensures OccursFirst(kept, r[i].0, k)
  {
    var e := TallyEntryOf(t, kept, k);
    var jt :| 0 <= jt < |t| && t[jt] == e;
    assert r[i] in multiset(t);
    var it :| 0 <= it < |t| && t[it] == r[i];
    KeysOfElements(r);
    assert Keys(r)[i] == r[i].0;
    CutTieOrder(t, r, it, jt, i);
  }

  /** Of two entries of equal count, one kept by a stable cut and one cut
      away, the kept one comes first in the counter. */
  lemma CutTieOrder<K>(t: seq<(K, nat)>, r: seq<(K, nat)>, it: nat, jt: nat, i: nat)
    requires DistinctKeys(t)
    requires it < |t| && jt < |t| && i < |r| && t[it] == r[i] && t[jt] !in r && t[it].1 == t[jt].1
    requires Peers(ByCount, r, t[jt]) <= Peers(ByCount, t, t[jt])
    ensures it < jt
  {
    var e := t[jt];
    var q := Peers(ByCount, r, e);
    assert q <= Peers(ByCount, t, e);
    PeersHasMember(ByCount, r, e, i);
    PeersInSeq(ByCount, r, e);
    assert t[it] !in t[..it] by {
      forall m | 0 <= m < it ensures t[..it][m] != t[it] {
        assert t[..it][m].0 == t[m].0;
      }
    }
    PeersBefore(ByCount, t, e, jt, it, q);
    assert it != jt;
  }

  lemma TopNStableAt<K(!new)>(t: seq<(K, nat)>, n: nat, x: (K, nat))
    ensures Peers(ByCount, TopN(t, n), x) <= Peers(ByCount, t, x)
  {
  }

  /** Every entry's key is among the keys. */
  lemma KeysOfElements<K, V>(t: seq<(K, V)>)
    ensures forall x :: x in t ==> x.0 in Keys(t)
  {
    forall x | x in t ensures x.0 in Keys(t) {
      var i :| 0 <= i < |t| && t[i] == x;
      assert Keys(t)[i] == x.0;
    }
  }

  /** An element ranked level with `x` is among the peers of `x`. */
  lemma {:induction false} PeersHasMember<T>(geq: (T, T) -> bool, s: seq<T>, x: T, i: nat)
    requires i < |s| && SameRank(geq, s[i], x)
    ensures s[i] in Peers(geq, s, x)
    decreases |s|
  {
    var h := if SameRank(geq, s[0], x) then [s[0]] else [];
    assert Peers(geq, s, x) == h + Peers(geq, s[1..], x);
    if i > 0 {
      PeersHasMember(geq, s[1..], x, i - 1);
    }
  }

  /** The peers are elements of the sequence. */
  lemma {:induction false} PeersInSeq<T>(geq: (T, T) -> bool, s: seq<T>, x: T)
    ensures forall y :: y in Peers(geq, s, x) ==> y in s
    decreases |s|
  {
    if |s| > 0 {
      PeersInSeq(geq, s[1..], x);
      var h := if SameRank(geq, s[0], x) then [s[0]] else [];
      assert Peers(geq, s, x) == h + Peers(geq, s[1..], x);
      forall y | y in Peers(geq, s[1..], x) ensures y in s {
        var m :| 0 <= m < |s[1..]| && s[1..][m] == y;
        assert s[m + 1] == y;
      }
    }
  }

  /** Within a prefix of the peers, an element brings along every peer that
      comes before it in the sequence. */
  lemma {:induction false} PeersBefore<T>(geq: (T, T) -> bool, t: seq<T>, x: T, a: nat, b: nat, q: seq<T>)
    requires a < |t| && b < |t| && q <= Peers(geq, t, x)
    ensures (a < b && SameRank(geq, t[a], x) && SameRank(geq, t[b], x) && t[b] !in t[..b] && t[b] in q)
      ==> t[a] in q
    decreases |t|
  {
    if a < b && SameRank(geq, t[a], x) && SameRank(geq, t[b], x) && t[b] !in t[..b] && t[b] in q {
      var h := if SameRank(geq, t[0], x) then [t[0]] else [];
      var rest := Peers(geq, t[1..], x);
      assert Peers(geq, t, x) == h + rest;
      assert |q| > 0;
      if a == 0 {
        assert q[0] == (h + rest)[0];
      } else {
        assert t[..b][0] == t[0];
        assert t[b] != t[0];
        var q' := if SameRank(geq, t[0], x) then q[1..] else q;
        assert q' <= rest;
        assert t[b] in q';
        assert t[1..][..b - 1] == t[..b][1..];
        assert t[1..][b - 1] == t[b] && t[1..][a - 1] == t[a];
        PeersBefore(geq, t[1..], x, a - 1, b - 1, q');
      }
    }
  }

  /** First occurrence among the kept keys is first occurrence among all
      keys, for a key that passes the filter. */
  lemma FilterOccursFirst<K(!new)>(keys: seq<K>, p: K -> bool, a: K, k: K)
    requires p(k) && OccursFirst(Filter(p, keys), a, k)
    ensures OccursFirst(keys, a, k)
  {
    forall b | 0 <= b < |keys| && keys[b] == k
      ensures a in keys[..b]
    {
      FilterOccursAt(keys, p, a, k, b);
    }
  }

  lemma FilterOccursAt<K(!new)>(keys: seq<K>, p: K -> bool, a: K, k: K, b: nat)
    requires p(k) && OccursFirst(Filter(p, keys), a, k) && b < |keys| && keys[b] == k
    ensures a in keys[..b]
  {
    var c := FilterPosition(keys, p, b);
    FilterMember(p, keys[..b], a);
  }

  /** A kept element's place in the filtered sequence: after exactly the
      kept elements before it. */
  lemma FilterPosition<T(!new)>(s: seq<T>, p: T -> bool, b: nat) returns (c: nat)
    requires b < |s| && p(s[b])
    ensures c == |Filter(p, s[..b])| && c < |Filter(p, s)|
    ensures Filter(p, s)[c] == s[b] && Filter(p, s)[..c] == Filter(p, s[..b])
  {
    var upto := s[..b + 1];
    var front := s[..b];
    assert upto[..b] == front && upto[b] == s[b];
    FilterPrefix(p, s, b + 1);
    FilterLast(p, upto, front);
    var whole, u, pre := Filter(p, s), Filter(p, upto), Filter(p, front);
    c := |pre|;
    assert u == pre + [s[b]] && u <= whole;
    PrefixParts(whole, pre, s[b]);
  }

  lemma PrefixParts<T>(whole: seq<T>, pre: seq<T>, x: T)
    requires pre + [x] <= whole
    ensures |pre| < |whole| && whole[|pre|] == x && whole[..|pre|] == pre
  {
    assert whole[..|pre| + 1] == pre + [x];
    assert whole[..|pre| + 1][..|pre|] == whole[..|pre|];
  }

  lemma FilterLast<T(!new)>(p: T -> bool, s: seq<T>, front: seq<T>)
    requires |s| > 0 && front == s[..|s| - 1] && p(s[|s| - 1])
    ensures Filter(p, s) == Filter(p, front) + [s[|s| - 1]]
  {
  }

  lemma FilterMember<T(!new)>(p: T -> bool, s: seq<T>, a: T)
    ensures a in Filter(p, s) ==> a in s
  {
    if a in Filter(p, s) {
      assert a in multiset(Filter(p, s));
      assert a in multiset(s);
    }
  }

  /** Filtering a prefix gives a prefix of the filtered sequence. */
  lemma {:induction false} FilterPrefix<T(!new)>(p: T -> bool, s: seq<T>, m: nat)
    requires m <= |s|
    ensures Filter(p, s[..m]) <= Filter(p, s)
    decreases |s|
  {
    if m < |s| {
      var n := |s| - 1;
      var front := s[..n];
      FilterPrefix(p, front, m);
      assert front[..m] == s[..m];
      FilterSnoc(p, s, front);
      var a, b, c := Filter(p, s[..m]), Filter(p, front), Filter(p, s);
      assert a <= b;
      assert b <= c;
      PrefixTransitive(a, b, c);
    } else {
      assert s[..m] == s;
    }
  }

  lemma FilterSnoc<T(!new)>(p: T -> bool, s: seq<T>, front: seq<T>)
    requires |s| > 0 && front == s[..|s| - 1]
    ensures Filter(p, front) <= Filter(p, s)
  {
    var f := Filter(p, front);
    var g := if p(s[|s| - 1]) then f + [s[|s| - 1]] else f;
    assert Filter(p, s) == g;
    assert g[..|f|] == f;
  }

  lemma PrefixTransitive<T>(a: seq<T>, b: seq<T>, c: seq<T>)
    requires a <= b && b <= c
    ensures a <= c
  {
    assert c[..|a|] == c[..|b|][..|a|];
  }

  /** The distinct keys satisfying `p`: the keys a counter over them holds. */
  ghost function Counted<K>(keys: seq<K>, p: K -> bool): set<K> {
    set k | k in keys && p(k)
  }

  /** There are no more distinct keys than keys. */
  lemma CountedNoLarger<K>(keys: seq<K>, p: K -> bool)
    ensures |Counted(keys, p)| <= |keys|
  {
    var all := set i | 0 <= i < |keys| :: keys[i];
    forall k | k in Counted(keys, p) ensures k in all {
      var i :| 0 <= i < |keys| && keys[i] == k;
    }
    IndexImageSize(keys);
    SubsetSize(Counted(keys, p), all);
  }

  lemma {:induction false} SubsetSize<K>(a: set<K>, b: set<K>)
    requires a <= b
    ensures |a| <= |b|
    decreases |a|
  {
    if a != {} {
      var x :| x in a;
      SubsetSize(a - {x}, b - {x});
    }
  }

  lemma {:induction false} IndexImageSize<K>(keys: seq<K>)
    ensures |set i | 0 <= i < |keys| :: keys[i]| <= |keys|
    decreases |keys|
  {
    if |keys| > 0 {
      var n := |keys| - 1;
      IndexImageSize(keys[..n]);
      assert (set i | 0 <= i < |keys| :: keys[i])
        == (set i | 0 <= i < n :: keys[..n][i]) + {keys[n]};
    }
  }

  /** Which keys get counted depends only on the keys, not their order. */
  lemma CountedPermutation<K>(a: seq<K>, b: seq<K>, p: K -> bool)
    requires multiset(a) == multiset(b)
    ensures Counted(a, p) == Counted(b, p)
  {
    forall k ensures k in a <==> k in b {
      assert k in a <==> k in multiset(a);
      assert k in b <==> k in multiset(b);
    }
  }

  /** One entry per distinct key, as many entries as fit. */
  lemma TopCountsShape<K(!new)>(keys: seq<K>, p: K -> bool, n: nat, r: seq<(K, nat)>)
    requires r == TopN(Tally(Filter(p, keys)), n)
    ensures |r| == Min(n, |Counted(keys, p)|)
    ensures DistinctKeys(r)
    ensures forall i :: 0 <= i < |r| ==> r[i].0 in keys
  {
    var kept := Filter(p, keys);
    var t := Tally(kept);
    SubDistinct(t, r);
    TallySize(t, kept);
    CountedOfFilter(keys, p);
    KeysOfTop(keys, p, kept, t, r);
  }

  lemma CountedOfFilter<K(!new)>(keys: seq<K>, p: K -> bool)
    ensures (set k | k in Filter(p, keys)) == Counted(keys, p)
  {
    var kept := Filter(p, keys);
    forall k ensures k in kept <==> k in keys && p(k) {
      assert k in kept <==> k in multiset(kept);
      assert k in keys <==> k in multiset(keys);
    }
  }

  lemma KeysOfTop<K(!new)>(keys: seq<K>, p: K -> bool, kept: seq<K>, t: seq<(K, nat)>, r: seq<(K, nat)>)
    requires kept == Filter(p, keys) && IsTallyOf(t, kept) && multiset(r) <= multiset(t)
    ensures forall i :: 0 <= i < |r| ==> r[i].0 in keys
  {
    forall i | 0 <= i < |r| ensures r[i].0 in keys {
      assert r[i] in multiset(t);
      TallyEntry(t, kept, r[i]);
      assert r[i].0 in multiset(kept);
    }
  }

  /** A counter holds exactly as many entries as there are distinct keys. */
  lemma TallySize<K>(t: seq<(K, nat)>, keys: seq<K>)
    requires IsTallyOf(t, keys)
    ensures |t| == |set k | k in keys|
  {
    DistinctKeysCard(t);
    assert KeySet(t) == set k | k in keys by {
      forall k | k in keys ensures k in KeySet(t) {
        var m :| 0 <= m < |keys| && keys[m] == k;
        assert k in Keys(t);
        var j :| 0 <= j < |t| && Keys(t)[j] == k;
      }
    }
  }

  ghost function KeySet<K, V>(t: seq<(K, V)>): set<K> {
    set i | 0 <= i < |t| :: t[i].0
  }

  lemma {:induction false} DistinctKeysCard<K, V>(t: seq<(K, V)>)
    requires DistinctKeys(t)
    ensures |KeySet(t)| == |t|
    decreases |t|
  {
    if |t| > 0 {
      var n := |t| - 1;
      var front := t[..n];
      assert DistinctKeys(front);
      DistinctKeysCard(front);
      assert KeySet(t) == KeySet(front) + {t[n].0} by {
        forall k | k in KeySet(t) ensures k in KeySet(front) + {t[n].0} {
          var i :| 0 <= i < |t| && t[i].0 == k;
          if i < n {
            assert front[i].0 == k;
          }
        }
        forall k | k in KeySet(front) ensures k in KeySet(t) {
          var i :| 0 <= i < n && front[i].0 == k;
          assert t[i].0 == k;
        }
      }
      assert t[n].0 !in KeySet(front);
    }
  }

  /** Taking entries out of a counter, each at most as often as it occurs,
      keeps the keys distinct. */
  lemma SubDistinct<K, V>(t: seq<(K, V)>, r: seq<(K, V)>)
    requires DistinctKeys(t) && multiset(r) <= multiset(t)
    ensures DistinctKeys(r)
  {
    forall i, j | 0 <= i < j < |r| ensures r[i].0 != r[j].0 {
      if r[i].0 == r[j].0 {
        assert r[i] in multiset(t) && r[j] in multiset(t);
        var a :| 0 <= a < |t| && t[a] == r[i];
        var b :| 0 <= b < |t| && t[b] == r[j];
        assert a == b;
        assert r == r[..j] + r[j..];
        assert r[i] in r[..j] && r[j] in r[j..];
        assert multiset(r)[r[i]] >= 2;
        AtMostOnce(t, a);
        assert false;
      }
    }
  }

  /** An entry of a counter occurs in it once. */
  lemma AtMostOnce<K, V>(t: seq<(K, V)>, a: nat)
    requires DistinctKeys(t) && a < |t|
    ensures multiset(t)[t[a]] == 1
  {
    var e := t[a];
    assert t == t[..a] + [e] + t[a + 1..];
    assert e !in t[..a];
    var after := t[a + 1..];
    assert e !in after by {
      forall m | 0 <= m < |after| ensures after[m] != e {
        assert after[m] == t[a + 1 + m];
      }
    }
  }

  lemma TopCountsExact<K(!new)>(keys: seq<K>, p: K -> bool, n: nat, r: seq<(K, nat)>)
    requires r == TopN(Tally(Filter(p, keys)), n)
    ensures forall i :: 0 <= i < |r| ==> p(r[i].0) && r[i].1 == multiset(keys)[r[i].0]
  {
    var kept := Filter(p, keys);
    TopOfTally(kept, n);
    forall i | 0 <= i < |r|
      ensures p(r[i].0) && r[i].1 == multiset(keys)[r[i].0]
    {
      var j :| 0 <= j < |kept| && kept[j] == r[i].0;
      assert p(kept[j]);
    }
  }

  lemma TopCountsLeftOut<K(!new)>(keys: seq<K>, p: K -> bool, n: nat, r: seq<(K, nat)>)
    requires r == TopN(Tally(Filter(p, keys)), n)
    ensures forall i, k :: 0 <= i < |r| && k in keys && p(k) && k !in Keys(r) ==> r[i].1 >= multiset(keys)[k]
  {
    var kept := Filter(p, keys);
    TopOfTally(kept, n);
    forall i, k | 0 <= i < |r| && k in keys && p(k) && k !in Keys(r)
      ensures r[i].1 >= multiset(keys)[k]
    {
      assert multiset(kept)[k] == multiset(keys)[k];
      assert k in multiset(kept);
    }
  }

  /** With room for every key, the top counts leave out no key that
      satisfies `p`. */
  lemma TopCountsComplete<K(!new)>(keys: seq<K>, p: K -> bool, n: nat, k: K)
    requires |keys| <= n && k in keys && p(k)
    ensures k in Keys(TopCounts(keys, p, n))
  {
    var kept := Filter(p, keys);
    assert multiset(kept)[k] == multiset(keys)[k];
    assert k in multiset(kept);
    var t := Tally(kept);
    TallyNoLonger(kept);
    var e := TallyEntryOf(t, kept, k);
    TopNKeepsAll(t, n);
    KeyOfMember(TopN(t, n), e);
  }

  /** With room for every entry, cutting to the top `n` drops nothing. */
  lemma TopNKeepsAll<K(!new)>(t: seq<(K, nat)>, n: nat)
    requires |t| <= n
    ensures multiset(TopN(t, n)) == multiset(t)
  {
    var r := TopN(t, n);
    var d := multiset(t) - multiset(r);
    assert multiset(t) == multiset(r) + d;
    assert |d| == 0;
  }

  lemma KeyOfMember<K, V>(t: seq<(K, V)>, e: (K, V))
    requires e in multiset(t)
    ensures e.0 in Keys(t)
  {
    var i :| 0 <= i < |t| && t[i] == e;
    assert Keys(t)[i] == e.0;
  }

  /** A counter has no more entries than keys counted. */
  lemma {:induction false} TallyNoLonger<K>(keys: seq<K>)
    ensures |Tally(keys)| <= |keys|
    decreases |keys|
  {
    if |keys| > 0 {
      TallyNoLonger(keys[..|keys| - 1]);
    }
  }

  lemma TallyEntry<K>(t: seq<(K, nat)>, keys: seq<K>, e: (K, nat))
    requires IsTallyOf(t, keys) && e in multiset(t)
    ensures e.0 in keys && e.1 == multiset(keys)[e.0]
  {
    assert e in t;
    var j :| 0 <= j < |t| && t[j] == e;
  }

  lemma TallyEntryOf<K>(t: seq<(K, nat)>, keys: seq<K>, k: K) returns (e: (K, nat))
    requires IsTallyOf(t, keys) && k in keys
    ensures e in multiset(t) && e == (k, multiset(keys)[k])
  {
    var m :| 0 <= m < |keys| && keys[m] == k;
    assert k in Keys(t);
    var j :| 0 <= j < |t| && Keys(t)[j] == k;
    e := t[j];
  }
}

=== FILE: text.dfy ===
/**
  The handful of Python `str` operations the ingestion scripts rely on, stated
  on `seq<char>`: whitespace stripping, ASCII case mapping, prefix and
  substring tests, splitting on one separator character, and the lexical
  order used by `<=` / `>=` between strings.
 */
module Text {

  /** Exactly the characters for which Python's `str.isspace()` holds; the
      same set is matched by `\s` in a `str` regular expression. */
  predicate IsSpace(c: char) {
    || c == ' '
    || ('\t' <= c <= '\r')
    || ('\U{001C}' <= c <= '\U{001F}')
    || c == '\U{0085}'
    || c == '\U{00A0}'
    || c == '\U{1680}'
    || ('\U{2000}' <= c <= '\U{200A}')
    || c == '\U{2028}'
    || c == '\U{2029}'
    || c == '\U{202F}'
    || c == '\U{205F}'
    || c == '\U{3000}'
  }

  predicate IsAsciiDigit(c: char) {
    '0' <= c <= '9'
  }

  predicate IsAsciiUpper(c: char) {
    'A' <= c <= 'Z'
  }

  /** `s` with every trailing character satisfying `drop` removed:
      `s.rstrip()` for `drop == IsSpace`, `s.rstrip(',')` for a single character. */
  function TrimEnd(s: string, drop: char -> bool): (r: string)
    ensures r <= s
    ensures |r| == 0 || !drop(r[|r| - 1])
    ensures forall k :: |r| <= k < |s| ==> drop(s[k])
    decreases |s|
  {
    if |s| == 0 || !drop(s[|s| - 1]) then s else TrimEnd(s[..|s| - 1], drop)
  }

  /** How many leading characters of `s` satisfy `drop`. */
  function LeadingRun(s: string, drop: char -> bool): (n: nat)
    ensures n <= |s|
    ensures forall k :: 0 <= k < n ==> drop(s[k])
    ensures n == |s| || !drop(s[n])
    decreases |s|
  {
    if |s| == 0 || !drop(s[0]) then 0
    else
      var m := LeadingRun(s[1..], drop);
      assert forall k :: 1 <= k < 1 + m ==> s[k] == s[1..][k - 1];
      1 + m
  }

  /** `s` with every leading character satisfying `drop` removed. */
  function TrimStart(s: string, drop: char -> bool): (r: string)
    ensures |r| == 0 || !drop(r[0])
  {
    s[LeadingRun(s, drop)..]
  }

  /** Python `s.rstrip()`. */
  function RStrip(s: string): string {
    TrimEnd(s, IsSpace)
  }

  /** Python `s.strip()`. */
  function Strip(s: string): string {
    TrimEnd(TrimStart(s, IsSpace), IsSpace)
  }

  /** A stripped string is a contiguous piece of the original with no
      whitespace at either end, and only whitespace was cut away. */
  lemma StripIsInnerPiece(s: string) returns (a: nat, r: string)
    ensures r == Strip(s)
    ensures a + |r| <= |s| && s[a..a + |r|] == r
    ensures forall k :: 0 <= k < a ==> IsSpace(s[k])
    ensures forall k :: a + |r| <= k < |s| ==> IsSpace(s[k])
    ensures |r| == 0 || (!IsSpace(r[0]) && !IsSpace(r[|r| - 1]))
  {
    a, r := TrimBothIsInnerPiece(s, IsSpace);
  }

  lemma TrimBothIsInnerPiece(s: string, drop: char -> bool) returns (a: nat, r: string)
    ensures r == TrimEnd(TrimStart(s, drop), drop)
    ensures a + |r| <= |s| && s[a..a + |r|] == r
    ensures forall k :: 0 <= k < a ==> drop(s[k])
    ensures forall k :: a + |r| <= k < |s| ==> drop(s[k])
    ensures |r| == 0 || (!drop(r[0]) && !drop(r[|r| - 1]))
  {
    var t := TrimStart(s, drop);
    r := TrimEnd(t, drop);
    a := LeadingRun(s, drop);
    assert r == t[..|r|];
    assert s[a..a + |r|] == r;
    assert |r| > 0 ==> r[0] == t[0];
    forall k | a + |r| <= k < |s|
      ensures drop(s[k])
    {
      assert s[k] == t[k - a];
    }
  }

  function UpperChar(c: char): char {
    if 'a' <= c <= 'z' then (c as int - 'a' as int + 'A' as int) as char else c
  }

  function LowerChar(c: char): char {
    if 'A' <= c <= 'Z' then (c as int - 'A' as int + 'a' as int) as char else c
  }

  /** Python `s.upper()` restricted to the ASCII letters. */
  function Upper(s: string): (r: string)
    ensures |r| == |s|
    ensures forall k :: 0 <= k < |s| ==> r[k] == UpperChar(s[k])
  {
    seq(|s|, k requires 0 <= k < |s| => UpperChar(s[k]))
  }

  /** Python `s.lower()` restricted to the ASCII letters. */
  function Lower(s: string): (r: string)
    ensures |r| == |s|
    ensures forall k :: 0 <= k < |s| ==> r[k] == LowerChar(s[k])
  {
    seq(|s|, k requires 0 <= k < |s| => LowerChar(s[k]))
  }

  /** Python `s.startswith(p)`. */
  predicate StartsWith(s: string, p: string) {
    p <= s
  }

  /** A copy of `sub` begins at offset `k` of `s`. */
  predicate OccursAt(s: string, sub: string, k: int) {
    0 <= k && k + |sub| <= |s| && s[k..k + |sub|] == sub
  }

  /** Python `sub in s`: `sub` occurs somewhere in `s`. */
  predicate Contains(s: string, sub: string) {
    exists k :: 0 <= k <= |s| - |sub| && OccursAt(s, sub, k)
  }

  /** Python `s.split(sep)` for a one-character separator. */
  function Split(s: string, sep: char): (parts: seq<string>)
    ensures |parts| >= 1
    ensures forall k :: 0 <= k < |parts| ==> sep !in parts[k]
    ensures Join(parts, sep) == s
    decreases |s|
  {
    if |s| == 0 then [""]
    else if s[0] == sep then
      var t := Split(s[1..], sep);
      assert s == [sep] + s[1..];
      [""] + t
    else
      var t := Split(s[1..], sep);
      var r := [[s[0]] + t[0]] + t[1..];
      JoinConsFirst(t, s[0], sep);
      assert s == [s[0]] + s[1..];
      assert forall k :: 1 <= k < |r| ==> r[k] == t[k];
      r
  }

  /** The inverse of `Split`: the parts with one separator between neighbours. */
  function Join(parts: seq<string>, sep: char): string
    decreases |parts|
  {
    if |parts| == 0 then ""
    else if |parts| == 1 then parts[0]
    else parts[0] + [sep] + Join(parts[1..], sep)
  }

  lemma JoinConsFirst(t: seq<string>, c: char, sep: char)
    requires |t| >= 1
    ensures Join([[c] + t[0]] + t[1..], sep) == [c] + Join(t, sep)
  {
    var r := [[c] + t[0]] + t[1..];
    if |t| > 1 {
      assert r[1..] == t[1..];
    }
  }

  /** Splitting is determined by the separators: `Split` is the only way to
      cut `s` into separator-free parts that re-join to `s`. */
  lemma {:induction false} SplitUnique(s: string, sep: char, parts: seq<string>)
    requires |parts| >= 1
    requires forall k :: 0 <= k < |parts| ==> sep !in parts[k]
    requires Join(parts, sep) == s
    ensures parts == Split(s, sep)
    decreases |s|, |parts[0]|
  {
    if |parts| == 1 {
      assert sep !in s;
      SplitNoSep(s, sep);
    } else if |parts[0]| == 0 {
      assert s == [sep] + Join(parts[1..], sep);
      assert s[1..] == Join(parts[1..], sep);
      SplitUnique(s[1..], sep, parts[1..]);
    } else {
      var c := parts[0][0];
      var rest := [parts[0][1..]] + parts[1..];
      assert parts[0] == [c] + parts[0][1..];
      JoinConsFirst(rest, c, sep);
      assert [[c] + rest[0]] + rest[1..] == parts;
      assert s == [c] + Join(rest, sep);
      assert s[1..] == Join(rest, sep);
      assert forall k :: 0 <= k < |rest| ==> sep !in rest[k] by {
        forall k | 0 <= k < |rest| ensures sep !in rest[k] {
          if k == 0 {
            assert forall x :: x in rest[0] ==> x in parts[0];
          } else {
            assert rest[k] == parts[k];
          }
        }
      }
      SplitUnique(s[1..], sep, rest);
      assert c != sep;
    }
  }

  lemma {:induction false} SplitNoSep(s: string, sep: char)
    requires sep !in s
    ensures Split(s, sep) == [s]
    decreases |s|
  {
    if |s| > 0 {
      assert sep !in s[1..] by {
        assert forall x :: x in s[1..] ==> x in s;
      }
      SplitNoSep(s[1..], sep);
    }
  }

  function Last<T>(s: seq<T>): T
    requires |s| >= 1
  {
    s[|s| - 1]
  }

  function AllButLast<T>(s: seq<T>): seq<T>
    requires |s| >= 1
  {
    s[..|s| - 1]
  }

  /** Appending in front leaves the last element, and extends the rest. */
  lemma LastOfAppend<T>(x: seq<T>, q: seq<T>)
    requires |q| >= 1
    ensures Last(x + q) == Last(q) && AllButLast(x + q) == x + AllButLast(q)
  {
    assert (x + q)[..|x + q| - 1] == x + q[..|q| - 1];
  }

  /** Splitting a concatenation: the complete parts of `u` come first, and the
      unfinished last part of `u` is continued by `v`. This is what makes a
      carry-over buffer in a chunked reader lose nothing. */
  lemma {:induction false} SplitAppend(u: string, v: string, sep: char)
    ensures Split(u + v, sep) == AllButLast(Split(u, sep)) + Split(Last(Split(u, sep)) + v, sep)
    decreases |u|
  {
    if |u| == 0 {
      assert u + v == v;
    } else {
      var rest := u[1..];
      assert u + v == [u[0]] + (rest + v);
      assert (u + v)[1..] == rest + v;
      SplitAppend(rest, v, sep);
      var t := Split(rest + v, sep);
      var t' := Split(rest, sep);
      if u[0] == sep {
        assert Split(u + v, sep) == [""] + t;
        assert Split(u, sep) == [""] + t';
      } else {
        assert Split(u + v, sep) == [[u[0]] + t[0]] + t[1..];
        assert Split(u, sep) == [[u[0]] + t'[0]] + t'[1..];
        if |t'| == 1 {
          assert Split(Last(Split(u, sep)) + v, sep) == Split([u[0]] + (rest + v), sep) by {
            assert Last(Split(u, sep)) == [u[0]] + rest;
            assert Last(Split(u, sep)) + v == [u[0]] + (rest + v);
          }
          assert ([u[0]] + (rest + v))[1..] == rest + v;
        } else {
          assert t == AllButLast(t') + Split(Last(t') + v, sep);
          assert t[0] == t'[0];
          assert t[1..] == t'[1..|t'| - 1] + Split(Last(t') + v, sep);
        }
      }
    }
  }

  /** Python's `a <= b` on strings: lexical order on code points, where a
      proper prefix sorts first. */
  predicate LexLe(a: string, b: string)
    decreases |a|
  {
    |a| == 0 || (|b| > 0 && (a[0] < b[0] || (a[0] == b[0] && LexLe(a[1..], b[1..]))))
  }

  lemma {:induction false} LexLeTotal(a: string, b: string)
    ensures LexLe(a, b) || LexLe(b, a)
    decreases |a|
  {
    if |a| > 0 && |b| > 0 && a[0] == b[0] {
      LexLeTotal(a[1..], b[1..]);
    }
  }

  lemma {:induction false} LexLeTransitive(a: string, b: string, c: string)
    requires LexLe(a, b) && LexLe(b, c)
    ensures LexLe(a, c)
    decreases |a|
  {
    if |a| > 0 && a[0] == b[0] && b[0] == c[0] {
      LexLeTransitive(a[1..], b[1..], c[1..]);
    }
  }

  lemma {:induction false} LexLeAntisymmetric(a: string, b: string)
    requires LexLe(a, b) && LexLe(b, a)
    ensures a == b
    decreases |a|
  {
    if |a| > 0 {
      LexLeAntisymmetric(a[1..], b[1..]);
      assert a == [a[0]] + a[1..];
      assert b == [b[0]] + b[1..];
    }
  }
}

=== FILE: violations.dfy ===
/**
  The streaming reader of the violations file. The file arrives in chunks;
  a carry-over buffer joins each chunk to the unfinished line before it, and
  only lines that a "\n" has closed are parsed. The first non-blank line is
  the `}`-separated header, and a data row is kept when its discovery date
  is not before the cutoff.

  `Feed` is one turn of the chunk loop and `FeedAll` the whole loop. The
  main results: feeding chunks one by one is the same as feeding their
  concatenation (so the cut points do not matter), the lines parsed are
  exactly the "\n"-terminated lines of the text with the unterminated rest
  left in the buffer, and the rows kept are those `KeptRows` describes
  declaratively.
 */
module ViolationStream {
  import opened Common
  import opened Text
  import opened Dates

  /** A parsed line: header name to field. */
  type Row = map<string, string>

  const DateColumn: string := "VIOLATION_DISC_DATE"

  /** `dict.get(key, default)`. */
  function Get(row: Row, key: string, default: string): (v: string)
    ensures key in row ==> v == row[key]
    ensures key !in row ==> v == default
  {
    if key in row then row[key] else default
  }

  /** `dict(zip(header, fields))` over the first `n` pairs: later pairs
      overwrite earlier ones with the same name. */
  function ZipPrefix(header: seq<string>, fields: seq<string>, n: nat): Row
    requires n <= |header| && n <= |fields|
  {
    if n == 0 then map[] else ZipPrefix(header, fields, n - 1)[header[n - 1] := fields[n - 1]]
  }

  /** `dict(zip(header, fields))`: pairs up to the shorter of the two. */
  function Zip(header: seq<string>, fields: seq<string>): Row {
    ZipPrefix(header, fields, Min(|header|, |fields|))
  }

  /** The keys of the zipped row are the paired header names, and each maps
      to the field under its last occurrence among them. */
  lemma {:induction false} ZipPrefixSpec(header: seq<string>, fields: seq<string>, n: nat, key: string)
    requires n <= |header| && n <= |fields|
    ensures key in ZipPrefix(header, fields, n) <==> key in header[..n]
    ensures key in ZipPrefix(header, fields, n) ==> exists j :: (0 <= j < n && header[j] == key
      && ZipPrefix(header, fields, n)[key] == fields[j]
      && forall j' :: j < j' < n ==> header[j'] != key)
  {
    if n > 0 {
      ZipPrefixSpec(header, fields, n - 1, key);
      assert header[..n] == header[..n - 1] + [header[n - 1]];
      if key == header[n - 1] {
        assert ZipPrefix(header, fields, n)[key] == fields[n - 1];
      } else if key in ZipPrefix(header, fields, n) {
        var j :| 0 <= j < n - 1 && header[j] == key
          && ZipPrefix(header, fields, n - 1)[key] == fields[j]
          && forall j' :: j < j' < n - 1 ==> header[j'] != key;
        assert ZipPrefix(header, fields, n)[key] == fields[j];
      }
    }
  }

  /** Fields beyond the header's length play no part in the row. */
  lemma {:induction false} ZipIgnoresExtraFields(header: seq<string>, fields: seq<string>, extra: seq<string>)
    requires |fields| >= |header|
    ensures Zip(header, fields + extra) == Zip(header, fields)
  {
    ZipPrefixAgree(header, fields, fields + extra, |header|);
  }

  lemma {:induction false} ZipPrefixAgree(header: seq<string>, f: seq<string>, g: seq<string>, n: nat)
    requires n <= |header| && n <= |f| && n <= |g|
    requires f[..n] == g[..n]
    ensures ZipPrefix(header, f, n) == ZipPrefix(header, g, n)
  {
    if n > 0 {
      assert f[..n - 1] == g[..n - 1] by {
        assert f[..n - 1] == f[..n][..n - 1];
        assert g[..n - 1] == g[..n][..n - 1];
      }
      assert f[n - 1] == f[..n][n - 1] == g[..n][n - 1] == g[n - 1];
      ZipPrefixAgree(header, f, g, n - 1);
    }
  }

  /** The header (once seen) and the rows kept so far. */
  datatype Scan = Scan(header: Option<seq<string>>, kept: seq<Row>)

  const Fresh: Scan := Scan(None, [])

  /** The row a data line gives under `header` when the filter keeps it: the
      stripped line split on `}` must have at least as many fields as the
      header, and the zipped row's date must be at least the cutoff. */
  function KeptRow(header: seq<string>, cutoff: string, line: string): (r: Option<Row>)
    ensures r.Some? <==> (Strip(line) != ""
      && |Split(Strip(line), '}')| >= |header|
      && LexLe(cutoff, Get(Zip(header, Split(Strip(line), '}')), DateColumn, "")))
    ensures r.Some? ==> r.value == Zip(header, Split(Strip(line), '}'))
  {
    var l := Strip(line);
    if l == "" then None
    else
      var fields := Split(l, '}');
      if |fields| < |header| then None
      else
        var row := Zip(header, fields);
        if LexLe(cutoff, Get(row, DateColumn, "")) then Some(row) else None
  }

  /** One pass of the inner `for line in lines[:-1]` loop body. */
  function Step(scan: Scan, cutoff: string, line: string): (next: Scan)
    ensures Strip(line) == "" ==> next == scan
    ensures scan.header.None? && Strip(line) != "" ==> next == Scan(Some(Split(Strip(line), '}')), scan.kept)
    ensures scan.header.Some? ==> next == Scan(scan.header, scan.kept + AsSeq(KeptRow(scan.header.value, cutoff, line)))
  {
    var l := Strip(line);
    if l == "" then scan
    else match scan.header
      case None => Scan(Some(Split(l, '}')), scan.kept)
      case Some(header) =>
        var fields := Split(l, '}');
        if |fields| < |header| then scan
        else
          var row := Zip(header, fields);
          if LexLe(cutoff, Get(row, DateColumn, "")) then Scan(scan.header, scan.kept + [row]) else scan
  }

  /** The inner loop over a list of complete lines. */
  function ProcessLines(scan: Scan, cutoff: string, lines: seq<string>): Scan {
    Fold((s: Scan, l: string) => Step(s, cutoff, l), scan, lines)
  }

  lemma ProcessLinesAppend(scan: Scan, cutoff: string, xs: seq<string>, ys: seq<string>)
    ensures ProcessLines(scan, cutoff, xs + ys) == ProcessLines(ProcessLines(scan, cutoff, xs), cutoff, ys)
  {
    FoldAppend((s: Scan, l: string) => Step(s, cutoff, l), scan, xs, ys);
  }

  lemma ProcessLinesCons(scan: Scan, cutoff: string, lines: seq<string>)
    requires |lines| > 0
    ensures ProcessLines(scan, cutoff, lines) == ProcessLines(Step(scan, cutoff, lines[0]), cutoff, lines[1..])
  {
  }

  /** The state of the chunk loop: the unfinished line and the scan. */
  datatype Reader = Reader(buffer: string, scan: Scan)

  const Start: Reader := Reader("", Fresh)

  /** One turn of the chunk loop: append the chunk to the buffer, split on
      "\n", parse every piece but the last, and keep the last as the buffer. */
  function Feed(st: Reader, cutoff: string, chunk: string): (next: Reader)
    ensures '\n' !in next.buffer
  {
    var parts := Split(st.buffer + chunk, '\n');
    Reader(Last(parts), ProcessLines(st.scan, cutoff, AllButLast(parts)))
  }

  /** The whole chunk loop. */
  function FeedAll(st: Reader, cutoff: string, chunks: seq<string>): Reader
    decreases |chunks|
  {
    if |chunks| == 0 then st else FeedAll(Feed(st, cutoff, chunks[0]), cutoff, chunks[1..])
  }

  function Concat(chunks: seq<string>): string
    decreases |chunks|
  {
    if |chunks| == 0 then "" else chunks[0] + Concat(chunks[1..])
  }

  /** Feeding two pieces one after the other is feeding their concatenation. */
  lemma FeedTwice(st: Reader, cutoff: string, a: string, b: string)
    ensures Feed(Feed(st, cutoff, a), cutoff, b) == Feed(st, cutoff, a + b)
  {
    var u := st.buffer + a;
    var p := Split(u, '\n');
    var q := Split(Last(p) + b, '\n');
    SplitAppend(u, b, '\n');
    assert st.buffer + (a + b) == u + b;
    LastOfAppend(AllButLast(p), q);
    ProcessLinesAppend(st.scan, cutoff, AllButLast(p), AllButLast(q));
  }


  /** With no "\n" pending in the buffer, feeding nothing changes nothing. */
  lemma FeedEmpty(st: Reader, cutoff: string)
    requires '\n' !in st.buffer
    ensures Feed(st, cutoff, "") == st
  {
    assert st.buffer + "" == st.buffer;
    SplitNoSep(st.buffer, '\n');
  }

  /** Chunk independence: the loop over any list of chunks ends where a
      single chunk holding the whole text would. */
  lemma {:induction false} FeedAllIsFeedOfConcat(st: Reader, cutoff: string, chunks: seq<string>)
    requires '\n' !in st.buffer
    ensures FeedAll(st, cutoff, chunks) == Feed(st, cutoff, Concat(chunks))
    decreases |chunks|
  {
    if |chunks| == 0 {
      FeedEmpty(st, cutoff);
    } else {
      var next := Feed(st, cutoff, chunks[0]);
      FeedAllIsFeedOfConcat(next, cutoff, chunks[1..]);
      FeedTwice(st, cutoff, chunks[0], Concat(chunks[1..]));
    }
  }

  /** Two ways of cutting the same text into chunks give the same buffer,
      header and kept rows. */
  lemma ChunkBoundariesDoNotMatter(cutoff: string, xs: seq<string>, ys: seq<string>)
    requires Concat(xs) == Concat(ys)
    ensures FeedAll(Start, cutoff, xs) == FeedAll(Start, cutoff, ys)
  {
    FeedAllIsFeedOfConcat(Start, cutoff, xs);
    FeedAllIsFeedOfConcat(Start, cutoff, ys);
  }

  /** The lines with their "\n" put back, one after another. */
  function Terminated(lines: seq<string>): string
    decreases |lines|
  {
    if |lines| == 0 then "" else lines[0] + "\n" + Terminated(lines[1..])
  }

  lemma {:induction false} JoinIsTerminatedPlusLast(parts: seq<string>)
    requires |parts| >= 1
    ensures Join(parts, '\n') == Terminated(AllButLast(parts)) + Last(parts)
    decreases |parts|
  {
    if |parts| > 1 {
      JoinIsTerminatedPlusLast(parts[1..]);
      assert AllButLast(parts)[1..] == AllButLast(parts[1..]);
      assert AllButLast(parts)[0] == parts[0];
    }
  }

  /** What the whole loop parses: the "\n"-terminated lines of the text, in
      order, none holding a "\n", with the text after the last "\n" left in
      the buffer and never parsed. */
  lemma ParsesExactlyTerminatedLines(cutoff: string, chunks: seq<string>) returns (lines: seq<string>)
    ensures Terminated(lines) + FeedAll(Start, cutoff, chunks).buffer == Concat(chunks)
    ensures forall k :: 0 <= k < |lines| ==> '\n' !in lines[k]
    ensures '\n' !in FeedAll(Start, cutoff, chunks).buffer
    ensures FeedAll(Start, cutoff, chunks).scan == ProcessLines(Fresh, cutoff, lines)
  {
    var text := Concat(chunks);
    FeedAllIsFeedOfConcat(Start, cutoff, chunks);
    assert "" + text == text;
    var parts := Split(text, '\n');
    lines := AllButLast(parts);
    JoinIsTerminatedPlusLast(parts);
  }

  /** The header read from a list of lines: the first non-blank one. */
  function HeaderLine(lines: seq<string>): (h: Option<nat>)
    ensures h.Some? ==> h.value < |lines| && Strip(lines[h.value]) != ""
    ensures h.Some? ==> forall k :: 0 <= k < h.value ==> Strip(lines[k]) == ""
    ensures h.None? <==> forall k :: 0 <= k < |lines| ==> Strip(lines[k]) == ""
  {
    var nonBlank := (l: string) => Strip(l) != "";
    assert forall j :: 0 <= j < |lines| ==> (nonBlank(lines[j]) <==> Strip(lines[j]) != "");
    FirstIndex(lines, nonBlank)
  }

  /** The rows kept from lines read under a fixed header, in order. */
  function KeptRows(header: seq<string>, cutoff: string, lines: seq<string>): seq<Row>
    decreases |lines|
  {
    if |lines| == 0 then [] else AsSeq(KeptRow(header, cutoff, lines[0])) + KeptRows(header, cutoff, lines[1..])
  }

  /** What a scan from scratch ends in, said without the loop: no header if
      every line is blank; otherwise the split of the first non-blank line,
      with the rows `KeptRow` keeps from the lines after it. */
  function Expected(cutoff: string, lines: seq<string>): Scan {
    match HeaderLine(lines)
    case None => Fresh
    case Some(h) =>
      var header := Split(Strip(lines[h]), '}');
      Scan(Some(header), KeptRows(header, cutoff, lines[h + 1..]))
  }

  lemma {:induction false} ProcessUnderHeader(header: seq<string>, kept: seq<Row>, cutoff: string, lines: seq<string>)
    ensures ProcessLines(Scan(Some(header), kept), cutoff, lines)
      == Scan(Some(header), kept + KeptRows(header, cutoff, lines))
    decreases |lines|
  {
    if |lines| > 0 {
      var row := AsSeq(KeptRow(header, cutoff, lines[0]));
      ProcessUnderHeader(header, kept + row, cutoff, lines[1..]);
      assert (kept + row) + KeptRows(header, cutoff, lines[1..]) == kept + KeptRows(header, cutoff, lines);
    }
  }

  lemma BlankLineSkipped(scan: Scan, cutoff: string, line: string)
    requires Strip(line) == ""
    ensures Step(scan, cutoff, line) == scan
  {
  }

  lemma ProcessBlankPrefix(cutoff: string, lines: seq<string>, n: nat)
    requires n <= |lines|
    requires forall k :: 0 <= k < n ==> Strip(lines[k]) == ""
    ensures ProcessLines(Fresh, cutoff, lines) == ProcessLines(Fresh, cutoff, lines[n..])
  {
    var f := (s: Scan, l: string) => Step(s, cutoff, l);
    forall k | 0 <= k < n
      ensures f(Fresh, lines[k]) == Fresh
    {
      BlankLineSkipped(Fresh, cutoff, lines[k]);
    }
    FoldSkipsFixedPrefix(f, Fresh, lines, n);
  }

  /** The loop and the declarative description agree on every input. */
  lemma ProcessLinesIsExpected(cutoff: string, lines: seq<string>)
    ensures ProcessLines(Fresh, cutoff, lines) == Expected(cutoff, lines)
  {
    match HeaderLine(lines)
    case None =>
      ProcessBlankPrefix(cutoff, lines, |lines|);
      assert lines[|lines|..] == [];
    case Some(h) =>
      ProcessFromHeader(cutoff, lines, h);
  }

  lemma ProcessFromHeader(cutoff: string, lines: seq<string>, h: nat)
    requires h < |lines| && Strip(lines[h]) != ""
    requires forall k :: 0 <= k < h ==> Strip(lines[k]) == ""
    ensures ProcessLines(Fresh, cutoff, lines)
      == Scan(Some(Split(Strip(lines[h]), '}')), KeptRows(Split(Strip(lines[h]), '}'), cutoff, lines[h + 1..]))
  {
    ProcessBlankPrefix(cutoff, lines, h);
    var header := Split(Strip(lines[h]), '}');
    var rest := lines[h..];
    ProcessLinesCons(Fresh, cutoff, rest);
    assert rest[0] == lines[h] && rest[1..] == lines[h + 1..];
    assert Step(Fresh, cutoff, lines[h]) == Scan(Some(header), []);
    ProcessUnderHeader(header, [], cutoff, lines[h + 1..]);
    assert [] + KeptRows(header, cutoff, lines[h + 1..]) == KeptRows(header, cutoff, lines[h + 1..]);
  }

  /** Each kept row comes from a distinct data line after the header, in
      file order, and meets the filter; the header line is never a row. */
  lemma KeptRowsInFileOrder(header: seq<string>, cutoff: string, lines: seq<string>) returns (origin: seq<nat>)
    ensures |origin| == |KeptRows(header, cutoff, lines)|
    ensures forall k :: 0 <= k < |origin| ==> (origin[k] < |lines|
      && KeptRow(header, cutoff, lines[origin[k]]) == Some(KeptRows(header, cutoff, lines)[k]))
    ensures forall k, l :: 0 <= k < l < |origin| ==> origin[k] < origin[l]
    ensures forall m :: 0 <= m < |lines| && KeptRow(header, cutoff, lines[m]).Some? ==> m in origin
  {
    KeptRowsAsSomes(header, cutoff, lines);
    origin := SomesOrigins(RowSteps(header, cutoff, lines));
  }

  /** What each line yields under the header, line by line. */
  function RowSteps(header: seq<string>, cutoff: string, lines: seq<string>): (steps: seq<Option<Row>>)
    ensures |steps| == |lines|
    ensures forall k :: 0 <= k < |lines| ==> steps[k] == KeptRow(header, cutoff, lines[k])
    decreases |lines|
  {
    if |lines| == 0 then []
    else RowSteps(header, cutoff, lines[..|lines| - 1]) + [KeptRow(header, cutoff, lines[|lines| - 1])]
  }

  lemma {:induction false} KeptRowsAsSomes(header: seq<string>, cutoff: string, lines: seq<string>)
    ensures KeptRows(header, cutoff, lines) == Somes(RowSteps(header, cutoff, lines))
    decreases |lines|
  {
    if |lines| > 0 {
      var n := |lines| - 1;
      var init := lines[..n];
      KeptRowsSnoc(header, cutoff, init, lines[n]);
      assert init + [lines[n]] == lines;
      KeptRowsAsSomes(header, cutoff, init);
      SomesSnoc(RowSteps(header, cutoff, init), KeptRow(header, cutoff, lines[n]));
    }
  }

  lemma {:induction false} KeptRowsSnoc(header: seq<string>, cutoff: string, lines: seq<string>, line: string)
    ensures KeptRows(header, cutoff, lines + [line])
      == KeptRows(header, cutoff, lines) + AsSeq(KeptRow(header, cutoff, line))
    decreases |lines|
  {
    if |lines| == 0 {
      assert [line][1..] == [];
    } else {
      assert (lines + [line])[1..] == lines[1..] + [line];
      KeptRowsSnoc(header, cutoff, lines[1..], line);
    }
  }

  /** For dates and a cutoff written as equally long digit strings, the
      lexical test is the numeric one: a row is recent exactly when its
      date's number is at least the cutoff's. */
  lemma RecentIsNumericallyRecent(cutoff: string, date: string)
    requires |cutoff| == |date| && AllDigits(cutoff) && AllDigits(date)
    ensures LexLe(cutoff, date) <==> Value(cutoff) <= Value(date)
  {
    LexOrderIsNumericOrder(cutoff, date);
  }

  /** `fetch_violations_data` after the download: the chunk loop as
      written, the incomplete last line carried over in `buffer`. */
  method FetchViolations(chunks: seq<string>, cutoff: string) returns (violations: seq<Row>)
    ensures violations == FeedAll(Start, cutoff, chunks).scan.kept
  {
    var header: Option<seq<string>> := None;
    violations := [];
    var buffer := "";
    var c := 0;
    while c < |chunks|
      invariant c <= |chunks|
      invariant FeedAll(Start, cutoff, chunks) == FeedAll(Reader(buffer, Scan(header, violations)), cutoff, chunks[c..])
    {
      var lines := Split(buffer + chunks[c], '\n');
      buffer := Last(lines);
      header, violations := ScanLines(header, violations, cutoff, AllButLast(lines));
      assert chunks[c..][1..] == chunks[c + 1..];
      c := c + 1;
    }
  }

  /** The inner `for line in lines[:-1]` loop as written, with its three
      `continue`s. */
  method ScanLines(header0: Option<seq<string>>, kept0: seq<Row>, cutoff: string, lines: seq<string>)
    returns (header: Option<seq<string>>, violations: seq<Row>)
    ensures Scan(header, violations) == ProcessLines(Scan(header0, kept0), cutoff, lines)
  {
    header, violations := header0, kept0;
    var k := 0;
    while k < |lines|
      invariant k <= |lines|
      invariant Scan(header, violations) == ProcessLines(Scan(header0, kept0), cutoff, lines[..k])
    {
      ProcessLinesPrefixStep(Scan(header0, kept0), cutoff, lines, k);
      var line := Strip(lines[k]);
      if line == "" {
        k := k + 1;
        continue;
      }
      if header.None? {
        header := Some(Split(line, '}'));
        k := k + 1;
        continue;
      }
      var fields := Split(line, '}');
      if |fields| < |header.value| {
        k := k + 1;
        continue;
      }
      var row := Zip(header.value, fields);
      var violDate := Get(row, DateColumn, "");
      if LexLe(cutoff, violDate) {
        violations := violations + [row];
      }
      k := k + 1;
    }
    assert lines[..k] == lines;
  }

  lemma ProcessLinesPrefixStep(scan: Scan, cutoff: string, lines: seq<string>, k: nat)
    requires k < |lines|
    ensures ProcessLines(scan, cutoff, lines[..k + 1]) == Step(ProcessLines(scan, cutoff, lines[..k]), cutoff, lines[k])
  {
    var f := (s: Scan, l: string) => Step(s, cutoff, l);
    assert lines[..k + 1] == lines[..k] + [lines[k]];
    FoldAppend(f, scan, lines[..k], [lines[k]]);
    FoldSingle(f, ProcessLines(scan, cutoff, lines[..k]), lines[k]);
  }
}
